=== FILE: README.md ===
# pydb storage and query core in Dafny

This project models the core of pydb, a small relational database written in
Python. It covers:

- **Schemas** (`pydb/table.py`). Schema validation, column lookup by name, and
  the column attribute map. Module `Tables`.
- **Indexes** (`pydb/index.py`). The hash index lookup, and the sorted-sequence
  index with its `bisect` based `scan`, `rscan` and `find`. Module `Index`.
- **The heap file** (`pydb/disk.py`). An append-only file of records. Each
  record has a 5-byte header: a 4-byte little-endian size, then a tombstone
  byte. The operations are append, get, remove (a tombstone) and a scan of
  the live records. Module `HeapFile`.
- **The disk table and disk database** (`pydb/disk.py`). A heap file plus a
  dense row-id to offset map, and a registry of tables. Module `Disk`.
- **The in-memory table and database** (`pydb/mem.py`). Module `Mem`.
- **The query operators** (`pydb/expr.py`, `pydb/scan.py`, `pydb/project.py`).
  Filtered scans, projections, index lookups and index scans. Module
  `Operators`.
- **The join operators** (`pydb/join.py`, `pydb/expr.py`). The indexed,
  nested-loop, hash and merge joins. Module `Joins`.
- **The planner** (`pydb/plan.py`). It turns a `SELECT ... FROM ... WHERE`
  into a plan of `Rows`, `Scan`, `FilteredScan` and `ColumnProjection`.
  Module `Planner`.

Query values (`pydb/query.py`) are in module `Query`. The error conditions are
in module `Errors`, and the values a row holds are in module `Values`.

## How the model reads the source

- **Exceptions** become the `Failure` side of a `Result`. Each Python exception
  the core raises is one `Errors.Error` constructor.
- **Generators** become finite sequences. An error raised part-way through a
  generator fails the whole result.
- **Values.** Rows are sequences of values. A value is an integer or a string,
  the two types `check_type` knows. Python's ordering of an integer against a
  string raises `TypeError`; the model returns `Incomparable`.
- **The WHERE filter.** The planner's lambda for WHERE becomes a
  `Planner.Pred` data value and a `Planner.Eval` function. The closures the
  operators take are Dafny function values.
- **Index and table objects** become function parameters: the index's `find`
  and `scan`, and the table's `get`. `get` returns a `Result`, because
  `DiskTable.get` raises on a row id past its index, a removed record and an
  undecodable payload. The sorted-sequence index is modelled over integer
  keys.
- **The disk file** is its byte content. Pickle is a `Disk.Codec` parameter.
  `Disk.Lossless` states the property the source relies on, that `decode`
  reads back what `encode` wrote.
- **Defects modelled with their evident intent.** Each is noted in a comment
  where it is modelled:
  - `bisect_left(seq, ...)` and `bisect_right(seq, ...)` name an undefined
    `seq`; the model uses `self._seq` (`pydb/index.py:51`, `:55`).
  - `SortedIndexScan.exec` passes an undefined `key`; the model uses
    `self.key` (`pydb/scan.py:37`).
  - `MergeJoin.__init__` never assigns `self.exp1`; the model uses the first
    input.
  - `ColumnEquals.test` lacks its `self` parameter; the model uses the two
    column positions.
- **Unknown selected columns.** `columnids` builds `tuple(map(columnid,
  names))`. `columnid` raises StopIteration for a name no column has, and
  `map` passes it to `tuple`, which takes it as the end of the names. So
  `Tables.ColumnIds` stops before the first unknown name, and
  `Planner.PlanSelect` projects onto the positions before it. A WHERE operand
  naming an unknown column is different: there the StopIteration escapes, as
  `UnknownColumn`.
- **Row id 0.** `IndexedLookup` and `IndexedJoin` test `if rowid:`, so they
  skip row id 0 as if it were missing. The model keeps this behaviour, and
  `Operators.IndexedLookupSkipsRowZero` states it.
- **Findings.** Three defects are modelled both as written and corrected; see
  "## Findings".

## Model

| member | source | states |
|---|---|---|
| `Values.LessTrichotomy` | pydb/plan.py:26-30 | Python's `<` on two integers or two strings is a strict total order: exactly one of `a < b`, `a == b`, `b < a` holds. |
| `Tables.CheckType` | pydb/table.py:16-22 | Passes exactly when an INT column gets an integer or a STRING column gets a string. Otherwise the error is `WrongType`. |
| `Tables.MakeColumn` | pydb/table.py:40-46 | Every positional attribute maps to `True`. A keyword attribute overrides it. No other attribute is present. |
| `Tables.MakeColumnHasAttr` | pydb/table.py:48-49 | `hasattr` holds exactly for the positional and keyword attributes given at construction. |
| `Tables.CheckColumn` | pydb/table.py:52-54 | Rejects exactly the empty column name, with a schema error. |
| `Tables.ColumnNames` | pydb/table.py:75-76 | The names of the columns, one per column, in declaration order. |
| `Tables.ColumnId` | pydb/table.py:69-70 | The first position holding the name. No earlier column has that name. Absent exactly when no column has it. |
| `Tables.ColumnIds` | pydb/table.py:72-73 | With no names it gives every position in order. Otherwise it gives the names' positions up to the first name no column has, and never fails. It covers every name exactly when every name is a column. |
| `Tables.ColumnIdsStopAtUnknown` | pydb/table.py:69-73 | With columns `id` and `name`, `columnids("name", "zzz")` is `(1,)` and `columnids("zzz")` is `()`. |
| `Tables.SetSizeDetectsDuplicates` | pydb/table.py:84-85 | `len(set(names)) != len(names)` holds exactly when some name is repeated. |
| `Tables.CheckSchema` | pydb/table.py:79-87 | Accepts exactly the valid schemas: a non-empty name, at least one column, distinct column names, no empty column name. The first failing check, in source order, picks the error. |
| `Tables.ColumnIdsOfAllNames` | pydb/table.py:69-76 | Asking for every column name, in order, gives `range(n)` when the names are distinct. |
| `Index.HashQuery` | pydb/index.py:42-43 | `query(key)` finds the stored value exactly when the key is in the map. |
| `Index.HashFindAsWrittenMisses` | pydb/index.py:18-19 | `HashIndex.find` is the inherited stub, so it answers `None` for a stored key that `query` finds. |
| `Index.HashFind` | pydb/index.py:38-43 | The corrected `find`: it finds the stored value exactly when the key is present. |
| `Index.BisectLeftSplits` | pydb/index.py:51 | On a sorted sequence, `bisect_left` splits it into the elements `< key` and the elements `>= key`. |
| `Index.BisectRightSplits` | pydb/index.py:55 | On a sorted sequence, `bisect_right` splits it into the elements `<= key` and the elements `> key`. |
| `Index.ScanAscendingFromKey` | pydb/index.py:50-52 | `scan(k)` yields, ascending, the suffix of elements `>= k`. Every element it leaves out is below `k`. |
| `Index.RScanDescendingToKey` | pydb/index.py:54-56 | `rscan(k)` yields, descending, the prefix of elements `<= k`. Every element it leaves out is above `k`. |
| `Index.ScanFromElement` | pydb/index.py:50-56 | On a strictly increasing index, scanning from a stored key starts at that key, and `rscan` ends at it. |
| `Index.FindLeastAtLeast` | pydb/index.py:23-24 | `find(k)` is the least stored element `>= k`, which need not equal `k`. It is `None` exactly when every element is below `k`. |
| `HeapFile.DecodeEncodeLittleEndian` | pydb/disk.py:30-36 | Reading back a little-endian size field gives the size written, when the size fits the width. |
| `HeapFile.EncodeHeader` | pydb/disk.py:30-31 | `struct.pack("<L?")` succeeds exactly for a size below 2^32. It writes 5 bytes, the fifth being the tombstone flag. |
| `HeapFile.DecodeHeader` | pydb/disk.py:33-36 | `struct.unpack` succeeds exactly on 5 bytes. The flag is set exactly when the fifth byte is non-zero. |
| `HeapFile.HeaderRoundTrip` | pydb/disk.py:24-36 | Reading back a written header gives the same size and flag. |
| `HeapFile.HeaderBytesRoundTrip` | pydb/disk.py:24-36 | Rewriting a read header gives the same 5 bytes when the flag byte is 0 or 1. |
| `HeapFile.Append` | pydb/disk.py:75-82 | Returns the old end of file as the offset. Keeps the old bytes. Writes a live header with the payload size, then the payload. |
| `HeapFile.Get` | pydb/disk.py:84-98 | Returns the payload under a live header. Fails with `RowRemoved` exactly when the header at the offset is a tombstone. Under a live header it succeeds exactly when the payload the header sizes ends within the file. |
| `HeapFile.Remove` | pydb/disk.py:100-106 | Changes only the flag byte of the header at the offset, and afterwards that header is a tombstone. An already removed record is left as is. |
| `HeapFile.RemoveIdempotent` | pydb/disk.py:100-106 | Removing a record twice leaves the same file as removing it once. |
| `HeapFile.ScanFromEntries` | pydb/disk.py:108-117 | When the scan succeeds, every yielded offset lies in the file, from the start offset on. Offsets strictly increase. Each holds a live header with the yielded payload. |
| `HeapFile.AppendThenGet` | pydb/disk.py:75-89 | `get` at the offset `append` returned gives back the appended payload. |
| `HeapFile.RemoveFrame` | pydb/disk.py:100-106 | On a file of whole records, `remove` at a record's offset tombstones exactly that record. Every offset stays the same. |
| `HeapFile.ScanFrames` | pydb/disk.py:108-117 | On a file of whole records, `scan` yields, in file order, the offset and payload of each live record. |
| `HeapFile.LiveFromSpec` | pydb/disk.py:113-117 | The records a scan visits are exactly the live ones, in increasing file order. |
| `HeapFile.ScanWithoutRemovals` | pydb/disk.py:108-117 | When nothing was removed, the scan yields every record, the i-th at the i-th record's offset. |
| `Disk.DecodeEntries` | pydb/disk.py:173-175 | Decoding the scanned payloads succeeds exactly when each one decodes, and gives one row per entry, in order. |
| `Disk.Open` | pydb/disk.py:131-141 | Row id k maps to the offset of the k-th live record the scan yields. |
| `Disk.Insert` | pydb/disk.py:155-158 | The new row id is the old number of row ids. Its offset is the old end of file. Earlier ids are unchanged. The row is returned. |
| `Disk.Delete` | pydb/disk.py:160-165 | An id past the end is an `IndexError`. A deleted id raises. A live id succeeds exactly when the header at its offset reads. It then tombstones that record, keeps the file's length, and clears only that id's slot. |
| `Disk.Get` | pydb/disk.py:167-171 | An id past the end is an `IndexError`. A deleted id gives `None`. A live id gives the decoded record at its offset, and succeeds exactly when the heap file reads that record and the codec decodes it. |
| `Disk.InsertThenGet` | pydb/disk.py:155-171 | After an insert, `get` of the new id returns the inserted row, and `get` of every older id is unchanged. |
| `Disk.DeleteThenGet` | pydb/disk.py:160-171 | After a delete, `get` of that id gives `None`, and a second delete of it raises. |
| `Disk.OpenTracks` | pydb/disk.py:131-141 | Opening a file of whole records numbers its live records in file order. Each id's `get` reads its record. |
| `Disk.ReopenAfterInserts` | pydb/disk.py:131-158 | Reopening a table that only had inserts rebuilds the same row-id map. |
| `Disk.CreateTable` | pydb/disk.py:227-232 | The schema is checked first, then the name must be new. On success only that name is added, bound to the opened table. |
| `Disk.InsertQuery` | pydb/disk.py:239-249 | Checks, in order, the count of columns against values, then the table name, then the schema's column names. Once those pass it succeeds exactly when the table's insert does, and otherwise fails with that insert's error. On success only the named table changes, and the inserted row is returned as a one-row cursor. |
| `Disk.CreateRejectsInvalidSchema` | pydb/disk.py:227-228 | An invalid schema is rejected with a schema error, whatever the data file holds. |
| `Disk.SelectAllReturnsLiveRows` | pydb/disk.py:234-237 | Selecting every column of a disk table without WHERE returns its live rows in file order. |
| `Disk.RowsOfFrames` | pydb/disk.py:173-175 | On a file of whole records, `rows()` is the live payloads decoded in file order, failing exactly when one of them does not decode. |
| `Disk.RowsAfterInsert` | pydb/disk.py:155-175 | Through a lossless codec, after an insert `rows()` gives the earlier live rows, then the inserted row. |
| `Disk.DeleteRemovesRow` | pydb/disk.py:160-175 | After a delete, `rows()` is the earlier live rows with exactly the deleted row's record left out, the others in order. |
| `Disk.InsertThenSelectAll` | pydb/disk.py:234-249 | Through a lossless codec, an INSERT followed by a SELECT of every column returns the table's earlier live rows, then the inserted values. |
| `HeapFile.LivePayloadsSnoc` | pydb/disk.py:75-82 | A live record appended to the file is scanned last, after the live records already there. |
| `HeapFile.LivePayloadsTombstoned` | pydb/disk.py:100-106 | Removing a live record drops its payload from the scanned payloads and keeps the others in order. |
| `Mem.CheckColTypes` | pydb/mem.py:18-19 | Asserts only the row's arity, not the value types. |
| `Mem.Insert` | pydb/mem.py:47-57 | Checks the count of columns against values, then the schema's column names. On success it appends the values as the last row and returns them. Rows keep the schema's arity. |
| `Mem.InsertNeverTripsAssertion` | pydb/mem.py:47-57 | The arity `assert` cannot fail once the column checks pass. |
| `Mem.CreateTableAsWritten` | pydb/mem.py:76-80 | Registers an empty table under any name not yet taken, without checking the schema. |
| `Mem.CreateTableAsWrittenAcceptsInvalidSchema` | pydb/mem.py:76-80 | A schema with an empty name and no columns is registered as written, but rejected after the correction. |
| `Mem.CreateTable` | pydb/mem.py:76-80 | The corrected create: it succeeds exactly for a valid schema with a new name, and keeps every table's rows fitting its schema. |
| `Mem.InsertQuery` | pydb/mem.py:87-91 | An unknown table is reported first. Otherwise it succeeds exactly when the table's insert does. Only the named table changes, gaining the values as its last row. |
| `Mem.SelectAllInInsertionOrder` | pydb/mem.py:44-45 | Selecting every column without WHERE returns the table's rows in insertion order. |
| `Mem.InsertThenSelectAll` | pydb/mem.py:82-91 | After an insert, a full select of the table ends with the inserted values. |
| `Mem.InsertErrorOrderDiffers` | pydb/mem.py:87-91 | For the same bad insert into an unknown table, the memory database reports the unknown table while the disk database reports the count mismatch. |
| `Operators.Filter` | pydb/scan.py:23-24 | A filtered scan yields no more rows than its input, and each satisfies the filter. |
| `Operators.FilterMultiset` | pydb/scan.py:23-24 | A row is kept, as many times as it occurs, exactly when it satisfies the filter. |
| `Operators.FilterIsSubsequence` | pydb/expr.py:56-57 | A filtered scan keeps the input order. |
| `Operators.FilterIdempotent` | pydb/scan.py:23-24 | Filtering twice by the same predicate equals filtering once. |
| `Operators.FilterAllPass` | pydb/scan.py:23-24 | A filter every row satisfies is the plain scan. |
| `Operators.IndexedLookup` | pydb/expr.py:36-40 | At most one row, and none when `find` gives no truthy row id. For a truthy row id it succeeds exactly when the table's `get` does, yields that row, and otherwise raises `get`'s error. |
| `Operators.IndexedLookupSkipsRowZero` | pydb/expr.py:38-39 | A key the index maps to row id 0 yields no row. |
| `Operators.IndexedLookupOnHashIndex` | pydb/expr.py:36-40 | Over a hash index, the lookup is the table's `get` at the row id its key maps to when the key is present with a row id other than 0, and empty otherwise. |
| `Operators.ColumnProjection` | pydb/project.py:22-26 | One output row per input row. The j-th value of each is the input's value at the j-th chosen column. |
| `Operators.ProjectAllColumns` | pydb/expr.py:150-154 | Projecting rows of arity n onto `range(n)` returns them unchanged. |
| `Operators.DynamicProjection` | pydb/project.py:13-14 | One output per input, each the function applied to the input at the same position. |
| `Operators.RangeIndexedScan` | pydb/scan.py:47-48 | Yields, in the index's order, the element at each row id the index scan returns. |
| `Operators.SortedIndexScan` | pydb/scan.py:36-37 | Yields the element at each row id of the sorted index's `scan(key)`, in that order. |
| `Operators.SortedIndexScanVisitsFromKey` | pydb/scan.py:36-37 | On a sorted index, the visited row ids are exactly the index entries `>= key`. |
| `Joins.IndexProbe` | pydb/join.py:55-58 | One left row's step: nothing for a miss, the table's row for a hit, `get`'s error when it raises, and the `assert` when it returns `None`. |
| `Joins.IndexedJoin` | pydb/join.py:53-59 | Succeeds exactly when every left row's probe does: a miss, or a hit whose `get` returns a row. Otherwise it raises the error of the first failing left row: `get`'s own error, or the source's `assert` when `get` returns `None`. |
| `Joins.IndexedJoinRows` | pydb/join.py:53-59 | On success, outputs one row per left row whose key the index finds, in left order: that left row glued to its indexed row. |
| `Joins.NestedLoopJoinMembers` | pydb/join.py:82-86 | A row is in the output exactly when it glues some left row to some right row that satisfy the condition. |
| `Joins.BuildIndexBuckets` | pydb/join.py:97-99 | Each bucket of the hash join's `defaultdict` holds, in input order, exactly the left rows with that key. |
| `Joins.HashJoinIsRightMajor` | pydb/join.py:96-102 | The hash join yields, for each right row in order, the matching left rows in left order. |
| `Joins.HashJoinSameRowsAsNestedLoop` | pydb/join.py:96-102 | The hash join yields the same rows, with the same multiplicities, as the nested-loop join on `ColumnEquals`. |
| `Joins.MergeJoin` | pydb/join.py:112-128 | Each output pair has equal keys, and there are no more pairs than rows on either side. |
| `Joins.MergeJoinLoop` | pydb/join.py:112-128 | The two-cursor loop computes the merge join. |
| `Joins.MergeJoinSubsequences` | pydb/expr.py:126-142 | The left halves of the pairs are a subsequence of the left input, and the right halves of the right input. |
| `Joins.MergeJoinCommonKeys` | pydb/join.py:112-128 | On inputs with strictly increasing keys, the output keys strictly increase and are exactly the keys common to both inputs. |
| `Planner.BinOp` | pydb/plan.py:25-31 | Looks up one of the five comparison symbols. An unknown symbol is a `KeyError`. |
| `Planner.Compare` | pydb/plan.py:26-30 | `=` is structural equality on any two values. Ordering fails exactly on an integer against a string. On two integers or two strings, `<` is the value order `Values.Less`, and `<=` is `<` or equality. |
| `Planner.CompareEqSymmetric` | pydb/plan.py:26 | `a = b` and `b = a` agree. |
| `Planner.CompareConverse` | pydb/plan.py:27-30 | `a > b` is `b < a`, `a >= b` is `b <= a`, and `<=` is `<` or `=`. |
| `Planner.FilterRows` | pydb/scan.py:23-24 | Filtering by a WHERE predicate succeeds exactly when it evaluates on every row, and then keeps the rows where it holds. A failure is the error of the first row on which the predicate fails. |
| `Planner.ProjectRow` | pydb/project.py:25-26 | Projecting one row succeeds exactly when every chosen position lies in the row, and gives the values at those positions. Otherwise the error names the first chosen position past the row's end. |
| `Planner.ProjectRows` | pydb/project.py:22-26 | Projection succeeds exactly when every chosen column exists in every row, and then equals the column projection. Otherwise the error is that of the first row whose projection fails. |
| `Planner.CompileOperand` | pydb/plan.py:72-80 | A constant compiles to itself. A symbol compiles to the position of its column, failing exactly when no column has that name. Anything else is not implemented. |
| `Planner.CompileOperandAsWrittenRejectsColumns` | pydb/plan.py:77 | With `schema` read as an attribute, every column symbol fails, though the corrected compile accepts it. |
| `Planner.CompileWhere` | pydb/plan.py:62-70 | Only a binary comparison compiles. It compiles exactly when its operator is known and both operands compile. The errors come in order: an unknown operator, then the left operand's, then the right operand's. The operator is the one named, and its column positions fit the schema. |
| `Planner.CompileWhereMeaning` | pydb/plan.py:62-80 | On a row of the table's arity, the compiled predicate compares the values the two terms denote in that row. |
| `Planner.PlanSelect` | pydb/plan.py:45-60 | Fails, in order, on an unknown table and a WHERE that does not compile, and on nothing else: an unknown selected name only cuts the selection short. The plan's shape is stated in `Planner.PlanSelectShape`. |
| `Planner.PlanQuery` | pydb/plan.py:39-43 | Only a SELECT is planned; anything else is not implemented. |
| `Planner.PlanSelectShape` | pydb/plan.py:45-60 | A planned select reads the named table, scans or filters it, and projects onto the selected columns' positions unless those are all columns in order. |
| `Planner.SelectWithoutWhere` | pydb/plan.py:45-60 | Without WHERE the plan returns the table's rows projected onto the selected columns. |
| `Planner.SelectWithWhere` | pydb/plan.py:45-70 | With WHERE the plan succeeds exactly when the predicate evaluates on every row, and returns the projection of the rows where it holds. |
| `Planner.PlanFullScan` | pydb/plan.py:54-58 | Selecting every column, in order, without WHERE plans a plain scan with no projection. |
| `Planner.PlanFilteredFullScan` | pydb/plan.py:45-60 | Selecting every column, in order, with a WHERE that compiles plans a filtered scan of the table with no projection. |
| `Planner.FilterEquals` | pydb/plan.py:62-78 | On rows that all have the column, filtering by a compiled `col = const` never fails, and keeps exactly the rows whose column equals the constant. |
| `Planner.SelectAllReturnsRows` | pydb/plan.py:45-60 | Selecting every column, in order, without WHERE returns the table's rows unchanged. |
| `Planner.SelectWhereEquals` | pydb/plan.py:62-78 | `WHERE col = const` over all columns returns exactly the rows whose column equals the constant, in table order. |

## Left out

- Files, folders and `seek`/`tell`: a heap file is its byte content. Opening
  and closing files, creating folders, and the manifest with its load and save
  are file-system I/O.
- `DiskDatabase.close`'s error aggregation. It is I/O cleanup.
- Pickle. Its byte format is replaced by the `Disk.Codec` parameter, because
  the serializer is foreign code.
- The `MAGIK`, `VERSION`, `HEADER` and `PREFIX_SIZE` constants of `HeapFile`.
  No operation of the source reads them.
- Laziness. Generators and cursors are modelled as finished sequences, so an
  interleaving of a running scan with writes is not represented.
  `MemDatabase` returns the inserted values, and `DiskDatabase` the one-row
  cursor, as plain values.
- The `exec` dispatch on a query's Python type, and parsing a query string.
  The model calls the create, insert and select operations directly, and the
  parser is not part of this model.
- `DiskTable.indexes`. It always returns an empty list, and nothing in the
  core consumes it.
- Index `insert`, `update` and `remove`. The `Index` classes in
  `pydb/index.py` only declare them, and the sorted list index the tests use
  is not part of this model.
- `RangeIndex.scan`. It is a stub, so `Operators.RangeIndexedScan` takes its
  result as a parameter.
- Joins, outer joins and index lookups produced by the planner. The planner
  does not produce them; the outer join classes are stubs.
- Join, delete and update queries. The core does not execute them.
- Tuple versus list. The source compares the INSERT's column list to the
  schema's name tuple with `!=`. Python reports a list and a tuple as unequal
  even with the same contents; the model compares contents.
- Python's negative indexes (`row[-1]`). Column positions are natural numbers
  here. `Planner.ProjectRow`, `Planner.ProjectRows` and `Planner.OperandValue`
  return `ColumnOutOfRange` for a position past the end; the members below
  instead require every position to be in range.
- Joins.IndexedJoin: requires the key column in every left row. The source
  raises `IndexError` on a shorter row (`pydb/join.py:55`).
- Joins.IndexedJoinRows: requires the key column in every left row, as
  `Joins.IndexedJoin` does.
- Joins.HashJoin: requires the key columns in every row of both inputs. The
  source raises `IndexError` on a shorter row (`pydb/join.py:98`, `:100`).
- Joins.ColumnEquals: is false on a row too short for its column, where the
  source raises `IndexError`.
- Operators.RangeIndexedScan: requires every row id the index yields to be a
  position of the sequence. The source raises `IndexError` on one past the
  end and reads a negative one from the end (`pydb/scan.py:48`).
- Operators.SortedIndexScan: requires every row id `scan(key)` yields to be a
  position of the sequence, for the same reason (`pydb/scan.py:37`).
- Planner.Exec: runs each stage over every row before the next stage starts.
  The source chains generators (`pydb/scan.py:24`, `pydb/project.py:23`,
  `pydb/disk.py:173-175`), so each row is decoded, filtered and projected
  before the next row is read. The two orders differ only in which error is
  reported when several rows fail. For example, a filter error on a later
  row is reported instead of a projection error on an earlier row, and a
  corrupt later record is reported instead of a filter error on an earlier
  row. Rows of the wrong arity, which `DiskTable.insert` does not reject,
  can produce such mixes.
- Disk.Get: takes a natural row id. The source indexes `_row_index[rowid]`
  (`pydb/disk.py:168`), so a negative id reads a slot counted from the end.
- Disk.Delete: takes a natural row id. The source indexes
  `_row_index[rowid]` (`pydb/disk.py:161`), so a negative id removes a slot
  counted from the end.
- Value types other than integers and strings, and floats. `check_type` knows
  only the two.
- Ordering an integer against a string. It is the `Incomparable` error,
  standing for Python's `TypeError`.
- The sorted-sequence index and the merge join's keys are integers. Other
  Python orderings are not modelled.
- Disk.Rows: its contract states only one row per live record. The contents
  are stated through `HeapFile.ScanFrames` and `Disk.DecodeEntries`. It also
  decodes every record before any later stage runs, as the `Planner.Exec`
  line above describes.
- Joins.MergeJoin: its contract states the key agreement and the size bound.
  The common-key characterisation needs strictly increasing keys and is in
  `Joins.MergeJoinCommonKeys`.
- Operators.Filter: its contract states only the length bound and that every
  kept row passes. The exact contents are in `Operators.FilterMultiset` and
  `Operators.FilterIsSubsequence`.

## Findings

| source | as written | input that shows it | evidently intended | confidence | as-written member | corrected member |
|---|---|---|---|---|---|---|
| pydb/index.py:18-19 | `HashIndex` defines only `query`. Its `find` is the base-class stub, which returns `None` for every key. | A hash index over `{1: 7}`: `find(1)` gives `None` while `query(1)` gives `7`. The lookups in `pydb/expr.py:37` and `pydb/join.py:55` call `find`. | `find` returns the stored value, as `tests/test_index.py:21-28` expects. | not executed | `Index.HashFindAsWrittenMisses` | `Index.HashFind` |
| pydb/mem.py:76-80 | `MemDatabase._create_table` never calls `check_schema`. | `CreateTable(Schema(""))` is accepted, though `tests/base.py:138-152` expects a `SchemaError`. | Validate the schema first, as `pydb/disk.py:228` does. | not executed | `Mem.CreateTableAsWrittenAcceptsInvalidSchema` | `Mem.CreateTable` |
| pydb/plan.py:77 | `self._curr_table.schema.columnid(...)` reads `schema` as an attribute, but `schema` is a method. | `WHERE id = 1` on any table raises `AttributeError`, though `tests/base.py:51-65` expects the matching row. | Call `schema()`, as `pydb/plan.py:56` does. | not executed | `Planner.CompileOperandAsWrittenRejectsColumns` | `Planner.CompileOperand` |

=== FILE: disk.dfy ===
/** The disk table and disk database of pydb/disk.py: a heap file plus a
    dense row-id to offset map, and a name to table registry. Rows are
    serialized by a codec (pickle in the source) that the model takes as a
    parameter. */
module Disk {
  import opened Wrappers
  import opened Errors
  import opened Values
  import opened Tables
  import opened HeapFile
  import Query
  import Planner

  /** The row serializer: `encode` writes a row, `decode` reads one back or
      fails on bytes it cannot parse. */
  datatype Codec = Codec(encode: Row -> seq<byte>, decode: seq<byte> -> Option<Row>)

  /** A codec that reads back every row it writes. */
  ghost predicate Lossless(c: Codec) {
    forall r :: c.decode(c.encode(r)) == Some(r)
  }

  /** `rowIndex[rowid]` is the offset of the row's record, or `None` once the
      row is deleted. */
  datatype DiskTable = DiskTable(schema: Schema, file: seq<byte>, rowIndex: seq<Option<nat>>)

  function Decode(c: Codec, payload: seq<byte>): (r: Result<Row, Error>)
    ensures r.Success? <==> c.decode(payload).Some?
    ensures r.Success? ==> r.value == c.decode(payload).value
    ensures r.Failure? ==> r.error == CorruptPayload
  {
    match c.decode(payload)
    case None => Failure(CorruptPayload)
    case Some(row) => Success(row)
  }

  /** Decodes the payload of every entry of a scan, in order. */
  function DecodeEntries(c: Codec, es: seq<Entry>): (r: Result<seq<Row>, Error>)
    ensures r.Success? <==> forall k :: 0 <= k < |es| ==> c.decode(es[k].1).Some?
    ensures r.Success? ==> |r.value| == |es|
    ensures r.Success? ==> forall k :: 0 <= k < |es| ==> Some(r.value[k]) == c.decode(es[k].1)
    ensures r.Failure? ==> r.error == CorruptPayload
  {
    if |es| == 0 then Success([])
    else
      var row :- Decode(c, es[0].1);
      var rest :- DecodeEntries(c, es[1..]);
      Success([row] + rest)
  }

  /** `DiskTable.open`: scans the existing file (decoding every live record)
      and numbers the live records 0, 1, ... in file order. */
  function Open(c: Codec, schema: Schema, file: seq<byte>): (r: Result<DiskTable, Error>)
    ensures r.Success? ==> r.value.schema == schema && r.value.file == file
    ensures r.Success? ==> Scan(file, 0).Success?
    ensures r.Success? ==> |r.value.rowIndex| == |Scan(file, 0).value|
    ensures r.Success? ==> forall k :: 0 <= k < |r.value.rowIndex| ==>
      r.value.rowIndex[k] == Some(Scan(file, 0).value[k].0)
  {
    var es :- Scan(file, 0);
    var _ :- DecodeEntries(c, es);
    Success(DiskTable(schema, file, seq(|es|, k requires 0 <= k < |es| => Some(es[k].0))))
  }

  /** `DiskTable.insert`: appends the encoded row and gives it the next row
      id, `len(row_index) - 1`. */
  function Insert(c: Codec, t: DiskTable, row: Row): (r: Result<(DiskTable, nat, Row), Error>)
    ensures r.Success? <==> |c.encode(row)| < U32_LIMIT
    ensures r.Success? ==> r.value.1 == |t.rowIndex| == |r.value.0.rowIndex| - 1
    ensures r.Success? ==> r.value.2 == row
    ensures r.Success? ==> r.value.0.schema == t.schema
    ensures r.Success? ==> r.value.0.rowIndex == t.rowIndex + [Some(|t.file|)]
    ensures r.Success? ==> |r.value.0.file| == |t.file| + HEADER_SIZE + |c.encode(row)|
    ensures r.Success? ==> r.value.0.file[..|t.file|] == t.file
  {
    var (file, offset) :- Append(t.file, c.encode(row));
    var rowIndex := t.rowIndex + [Some(offset)];
    Success((DiskTable(t.schema, file, rowIndex), |rowIndex| - 1, row))
  }

  /** `DiskTable.delete`: tombstones the row's record and clears its slot;
      a deleted row cannot be deleted again. */
  function Delete(t: DiskTable, rowid: nat): (r: Result<DiskTable, Error>)
    ensures rowid >= |t.rowIndex| ==> r == Failure(RowIdOutOfRange(rowid))
    ensures rowid < |t.rowIndex| && t.rowIndex[rowid].None? ==> r == Failure(NoSuchRow(rowid))
    ensures r.Success? ==> r.value.schema == t.schema
    ensures r.Success? ==> r.value.rowIndex == t.rowIndex[rowid := None]
    ensures r.Success? ==> |r.value.file| == |t.file|
    ensures rowid < |t.rowIndex| && t.rowIndex[rowid].Some? ==>
      (r.Success? <==> t.rowIndex[rowid].value + HEADER_SIZE <= |t.file|)
    ensures rowid < |t.rowIndex| && t.rowIndex[rowid].Some? && r.Failure? ==> r.error == ShortHeader
    ensures r.Success? ==>
      (ReadHeader(r.value.file, t.rowIndex[rowid].value).Success? &&
       ReadHeader(r.value.file, t.rowIndex[rowid].value).value.tombstone)
  {
    if rowid >= |t.rowIndex| then Failure(RowIdOutOfRange(rowid))
    else match t.rowIndex[rowid]
      case None => Failure(NoSuchRow(rowid))
      case Some(offset) =>
        var file :- Remove(t.file, offset);
        Success(DiskTable(t.schema, file, t.rowIndex[rowid := None]))
  }

  /** `DiskTable.get`: `None` for a deleted row, otherwise the decoded
      record. */
  function Get(c: Codec, t: DiskTable, rowid: nat): (r: Result<Option<Row>, Error>)
    ensures rowid >= |t.rowIndex| ==> r == Failure(RowIdOutOfRange(rowid))
    ensures rowid < |t.rowIndex| && t.rowIndex[rowid].None? ==> r == Success(None)
    ensures rowid < |t.rowIndex| && t.rowIndex[rowid].Some? && r.Success? ==>
      HeapFile.Get(t.file, t.rowIndex[rowid].value).Success? &&
      r.value == c.decode(HeapFile.Get(t.file, t.rowIndex[rowid].value).value)
    ensures rowid < |t.rowIndex| && t.rowIndex[rowid].Some? ==>
      (r.Success? <==>
         HeapFile.Get(t.file, t.rowIndex[rowid].value).Success? &&
         c.decode(HeapFile.Get(t.file, t.rowIndex[rowid].value).value).Some?)
  {
    if rowid >= |t.rowIndex| then Failure(RowIdOutOfRange(rowid))
    else match t.rowIndex[rowid]
      case None => Success(None)
      case Some(offset) =>
        var payload :- HeapFile.Get(t.file, offset);
        var row :- Decode(c, payload);
        Success(Some(row))
  }

  /** `DiskTable.rows`: the live rows in file order. */
  function Rows(c: Codec, t: DiskTable): (r: Result<seq<Row>, Error>)
    ensures r.Success? ==> Scan(t.file, 0).Success? && |r.value| == |Scan(t.file, 0).value|
  {
    var es :- Scan(t.file, 0);
    DecodeEntries(c, es)
  }

  // ---------------------------------------------------------------------
  // The table invariant: the file is a sequence of records, and each
  // row id names its own live record.

  /** `slot[i]` is the record row `i` was written to. */
  ghost predicate Tracks(t: DiskTable, fs: seq<Frame>, slot: seq<nat>) {
    && WellSized(fs)
    && t.file == Serialize(fs)
    && |slot| == |t.rowIndex|
    && (forall i :: 0 <= i < |slot| ==> slot[i] < |fs|)
    && (forall i :: 0 <= i < |slot| && t.rowIndex[i].Some? ==>
          t.rowIndex[i].value == Offset(fs, slot[i]) && !fs[slot[i]].tombstone)
    && (forall i, j :: (0 <= i < |slot| && 0 <= j < |slot| && i != j &&
          t.rowIndex[i].Some? && t.rowIndex[j].Some?) ==> slot[i] != slot[j])
  }

  /** A tracked row reads back as the decoding of its record's payload. */
  lemma GetTracked(c: Codec, t: DiskTable, fs: seq<Frame>, slot: seq<nat>, i: nat)
    requires Tracks(t, fs, slot) && i < |t.rowIndex| && t.rowIndex[i].Some?
    ensures Get(c, t, i) == (match c.decode(fs[slot[i]].payload)
                             case None => Failure(CorruptPayload)
                             case Some(row) => Success(Some(row)))
  {
    GetFrame(fs, slot[i]);
  }

  /** Inserting into a tracked table appends one live record, which the new
      row id names. */
  lemma InsertTracks(c: Codec, t: DiskTable, fs: seq<Frame>, slot: seq<nat>, row: Row)
    requires Tracks(t, fs, slot) && |c.encode(row)| < U32_LIMIT
    ensures Insert(c, t, row).Success?
    ensures Tracks(Insert(c, t, row).value.0, fs + [Frame(false, c.encode(row))], slot + [|fs|])
  {
    TracksAppend(t, fs, slot, Frame(false, c.encode(row)), Insert(c, t, row).value.0);
  }

  /** A table that gains one row naming a new live record at the end of the
      file still tracks its records. */
  lemma TracksAppend(t: DiskTable, fs: seq<Frame>, slot: seq<nat>, fr: Frame, t': DiskTable)
    requires Tracks(t, fs, slot) && !fr.tombstone && |fr.payload| < U32_LIMIT
    requires t'.file == t.file + FrameBytes(fr)
    requires t'.rowIndex == t.rowIndex + [Some(|t.file|)]
    ensures Tracks(t', fs + [fr], slot + [|fs|])
  {
    var fs', slot' := fs + [fr], slot + [|fs|];
    SerializeSnoc(fs, fr);
    assert forall i :: 0 <= i < |slot'| ==> slot'[i] < |fs'|;
    forall i | 0 <= i < |slot'| && t'.rowIndex[i].Some?
      ensures t'.rowIndex[i].value == Offset(fs', slot'[i]) && !fs'[slot'[i]].tombstone
    {
      if i < |slot| {
        assert t'.rowIndex[i] == t.rowIndex[i] && slot'[i] == slot[i];
        AppendKeepsOffsets(fs, fr);
      }
    }
    forall i, j | 0 <= i < |slot'| && 0 <= j < |slot'| && i != j && t'.rowIndex[i].Some? && t'.rowIndex[j].Some?
      ensures slot'[i] != slot'[j]
    {
      if i < |slot| && j < |slot| {
        assert t'.rowIndex[i] == t.rowIndex[i] && t'.rowIndex[j] == t.rowIndex[j];
      }
    }
  }

  /** Deleting a tracked row tombstones its record and leaves every other
      row naming its own live record. */
  lemma DeleteTracks(t: DiskTable, fs: seq<Frame>, slot: seq<nat>, i: nat)
    requires Tracks(t, fs, slot) && i < |t.rowIndex| && t.rowIndex[i].Some?
    ensures Delete(t, i).Success?
    ensures Tracks(Delete(t, i).value, Tombstoned(fs, slot[i]), slot)
  {
    RemoveFrame(fs, slot[i]);
    SameShapeSameOffsets(fs, Tombstoned(fs, slot[i]));
  }

  /** A row reads back as what was inserted, through a lossless codec, and
      every earlier row reads as before. */
  lemma InsertThenGet(c: Codec, t: DiskTable, fs: seq<Frame>, slot: seq<nat>, row: Row, j: nat)
    requires Lossless(c) && Tracks(t, fs, slot) && |c.encode(row)| < U32_LIMIT
    requires j < |t.rowIndex|
    ensures Get(c, Insert(c, t, row).value.0, |t.rowIndex|) == Success(Some(row))
    ensures Get(c, Insert(c, t, row).value.0, j) == Get(c, t, j)
  {
    InsertTracks(c, t, fs, slot, row);
    var fs' := fs + [Frame(false, c.encode(row))];
    var t' := Insert(c, t, row).value.0;
    GetTracked(c, t', fs', slot + [|fs|], |t.rowIndex|);
    if t.rowIndex[j].Some? {
      GetTracked(c, t', fs', slot + [|fs|], j);
      GetTracked(c, t, fs, slot, j);
    }
  }

  /** After a delete the row reads as `None` and a second delete fails. */
  lemma DeleteThenGet(c: Codec, t: DiskTable, fs: seq<Frame>, slot: seq<nat>, i: nat)
    requires Tracks(t, fs, slot) && i < |t.rowIndex| && t.rowIndex[i].Some?
    ensures Delete(t, i).Success?
    ensures Get(c, Delete(t, i).value, i) == Success(None)
    ensures Delete(Delete(t, i).value, i) == Failure(NoSuchRow(i))
  {
    DeleteTracks(t, fs, slot, i);
  }

  /** Decodes a list of payloads; fails when the codec rejects any of
      them. */
  function DecodePayloads(c: Codec, ps: seq<seq<byte>>): (r: Result<seq<Row>, Error>)
    ensures r.Success? <==> forall k :: 0 <= k < |ps| ==> c.decode(ps[k]).Some?
    ensures r.Success? ==> |r.value| == |ps|
    ensures r.Success? ==> forall k :: 0 <= k < |ps| ==> Some(r.value[k]) == c.decode(ps[k])
    ensures r.Failure? ==> r.error == CorruptPayload
  {
    if forall k :: 0 <= k < |ps| ==> c.decode(ps[k]).Some? then
      Success(seq(|ps|, k requires 0 <= k < |ps| => c.decode(ps[k]).value))
    else Failure(CorruptPayload)
  }

  /** Decoding two lists one after the other decodes their concatenation. */
  lemma DecodePayloadsAppend(c: Codec, a: seq<seq<byte>>, b: seq<seq<byte>>)
    ensures DecodePayloads(c, a + b).Success? <==> DecodePayloads(c, a).Success? && DecodePayloads(c, b).Success?
    ensures DecodePayloads(c, a + b).Success? ==>
      DecodePayloads(c, a + b).value == DecodePayloads(c, a).value + DecodePayloads(c, b).value
  {
    DecodableAppend(c, a, b);
    if DecodePayloads(c, a + b).Success? {
      DecodedAppend(c, a, b);
    }
  }

  lemma DecodableAppend(c: Codec, a: seq<seq<byte>>, b: seq<seq<byte>>)
    ensures (forall k :: 0 <= k < |a + b| ==> c.decode((a + b)[k]).Some?) <==>
      (forall k :: 0 <= k < |a| ==> c.decode(a[k]).Some?) && (forall k :: 0 <= k < |b| ==> c.decode(b[k]).Some?)
  {
    var ab := a + b;
    assert forall k :: 0 <= k < |a| ==> ab[k] == a[k];
    assert forall k :: 0 <= k < |b| ==> ab[|a| + k] == b[k];
  }

  lemma DecodedAppend(c: Codec, a: seq<seq<byte>>, b: seq<seq<byte>>)
    requires DecodePayloads(c, a + b).Success?
    requires DecodePayloads(c, a).Success? && DecodePayloads(c, b).Success?
    ensures DecodePayloads(c, a + b).value == DecodePayloads(c, a).value + DecodePayloads(c, b).value
  {
    var ab := a + b;
    var r, v := DecodePayloads(c, ab).value, DecodePayloads(c, a).value + DecodePayloads(c, b).value;
    forall k | 0 <= k < |v| ensures r[k] == v[k] {
      if k < |a| {
        assert ab[k] == a[k] && v[k] == DecodePayloads(c, a).value[k];
      } else {
        assert ab[k] == b[k - |a|] && v[k] == DecodePayloads(c, b).value[k - |a|];
      }
    }
  }

  /** Leaving one payload out of a list that decodes leaves its row out of
      the decoded rows. */
  lemma DecodeWithout(c: Codec, ps: seq<seq<byte>>, p: nat)
    requires p < |ps| && DecodePayloads(c, ps).Success?
    ensures Some(DecodePayloads(c, ps).value[p]) == c.decode(ps[p])
    ensures DecodePayloads(c, ps[..p] + ps[p + 1..])
      == Success(DecodePayloads(c, ps).value[..p] + DecodePayloads(c, ps).value[p + 1..])
  {
    var rows, qs := DecodePayloads(c, ps).value, ps[..p] + ps[p + 1..];
    assert forall k :: 0 <= k < |qs| ==> qs[k] == ps[if k < p then k else k + 1];
    var r := DecodePayloads(c, qs);
    assert r.Success?;
    assert forall k :: 0 <= k < |qs| ==> r.value[k] == rows[if k < p then k else k + 1];
    assert r.value == rows[..p] + rows[p + 1..];
  }

  /** The rows of a table whose file holds `fs`: the live payloads,
      decoded in file order. */
  lemma RowsOfFrames(c: Codec, t: DiskTable, fs: seq<Frame>)
    requires WellSized(fs) && t.file == Serialize(fs)
    ensures Rows(c, t) == DecodePayloads(c, LivePayloadsFrom(fs, 0))
  {
    ScanFrames(fs);
    LiveEntriesPayloads(fs, 0);
    var es, ps := LiveEntriesFrom(fs, 0), LivePayloadsFrom(fs, 0);
    var r, r' := DecodeEntries(c, es), DecodePayloads(c, ps);
    assert r.Success? <==> r'.Success?;
    if r.Success? {
      assert r.value == r'.value;
    }
  }

  /** Through a lossless codec, an insert adds its row after the table's
      live rows. */
  lemma RowsAfterInsert(c: Codec, t: DiskTable, fs: seq<Frame>, slot: seq<nat>, row: Row)
    requires Lossless(c) && Tracks(t, fs, slot) && |c.encode(row)| < U32_LIMIT
    requires Rows(c, t).Success?
    ensures Rows(c, Insert(c, t, row).value.0) == Success(Rows(c, t).value + [row])
  {
    var fr := Frame(false, c.encode(row));
    InsertTracks(c, t, fs, slot, row);
    RowsOfFrames(c, t, fs);
    RowsOfFrames(c, Insert(c, t, row).value.0, fs + [fr]);
    LivePayloadsSnoc(fs, fr, 0);
    DecodePayloadsAppend(c, LivePayloadsFrom(fs, 0), [fr.payload]);
    DecodeEncoded(c, row);
  }

  /** A lossless codec decodes the payload of one encoded row to that row. */
  lemma DecodeEncoded(c: Codec, row: Row)
    requires Lossless(c)
    ensures DecodePayloads(c, [c.encode(row)]) == Success([row])
  {
    var one := DecodePayloads(c, [c.encode(row)]);
    assert c.decode([c.encode(row)][0]) == Some(row);
    assert one.Success? && |one.value| == 1 && Some(one.value[0]) == Some(row);
    assert one.value == [row];
  }

  /** Deleting a row takes exactly its record out of the table's live rows:
      the row it named is dropped from position `p` and the others keep
      their order. */
  lemma DeleteRemovesRow(c: Codec, t: DiskTable, fs: seq<Frame>, slot: seq<nat>, i: nat)
    requires Tracks(t, fs, slot) && i < |t.rowIndex| && t.rowIndex[i].Some?
    requires Rows(c, t).Success?
    ensures Delete(t, i).Success?
    ensures
      exists p :: 0 <= p < |Rows(c, t).value| &&
        Get(c, t, i) == Success(Some(Rows(c, t).value[p])) &&
        Rows(c, Delete(t, i).value) == Success(Rows(c, t).value[..p] + Rows(c, t).value[p + 1..])
  {
    var j := slot[i];
    DeleteTracks(t, fs, slot, i);
    GetTracked(c, t, fs, slot, i);
    RowsOfFrames(c, t, fs);
    RowsOfFrames(c, Delete(t, i).value, Tombstoned(fs, j));
    LivePayloadsTombstoned(fs, j, 0);
    var ps := LivePayloadsFrom(fs, 0);
    var p := |ps| - |LivePayloadsFrom(fs, j + 1)| - 1;
    DecodeWithout(c, ps, p);
    assert Get(c, t, i) == Success(Some(Rows(c, t).value[p]));
  }

  /** Reopening a well-formed file numbers its live records 0, 1, ... in
      file order, skipping removed ones: after a deletion the later rows get
      new, smaller row ids. */
  lemma OpenTracks(c: Codec, schema: Schema, fs: seq<Frame>)
    requires WellSized(fs)
    requires forall j :: 0 <= j < |fs| && !fs[j].tombstone ==> c.decode(fs[j].payload).Some?
    ensures Open(c, schema, Serialize(fs)).Success?
    ensures |Open(c, schema, Serialize(fs)).value.rowIndex| == |LiveFrom(fs, 0)|
    ensures forall k :: 0 <= k < |LiveFrom(fs, 0)| ==>
      Open(c, schema, Serialize(fs)).value.rowIndex[k] == Some(Offset(fs, LiveFrom(fs, 0)[k]))
    ensures Tracks(Open(c, schema, Serialize(fs)).value, fs, LiveFrom(fs, 0))
  {
    OpenLiveRecords(c, schema, fs);
    LiveFromSpec(fs, 0);
    LiveFromDistinct(fs, 0);
  }

  /** Opening a file of whole records succeeds when every live payload
      decodes, and row id `k` names the `k`-th live record. */
  lemma OpenLiveRecords(c: Codec, schema: Schema, fs: seq<Frame>)
    requires WellSized(fs)
    requires forall j :: 0 <= j < |fs| && !fs[j].tombstone ==> c.decode(fs[j].payload).Some?
    ensures Open(c, schema, Serialize(fs)).Success?
    ensures |Open(c, schema, Serialize(fs)).value.rowIndex| == |LiveFrom(fs, 0)|
    ensures forall k :: 0 <= k < |LiveFrom(fs, 0)| ==>
      Open(c, schema, Serialize(fs)).value.rowIndex[k] == Some(Offset(fs, LiveFrom(fs, 0)[k]))
  {
    ScanFrames(fs);
    LiveFromSpec(fs, 0);
    LiveEntriesAreLiveRecords(fs, 0);
    var es := LiveEntriesFrom(fs, 0);
    var live := LiveFrom(fs, 0);
    assert Scan(Serialize(fs), 0) == Success(es);
    forall k | 0 <= k < |es| ensures c.decode(es[k].1).Some? {
      assert es[k].1 == fs[live[k]].payload;
    }
    assert DecodeEntries(c, es).Success?;
  }

  /** A table built by inserts alone reopens to the same table: every row
      keeps its row id and reads back unchanged. */
  lemma ReopenAfterInserts(c: Codec, t: DiskTable, fs: seq<Frame>)
    requires Tracks(t, fs, Range(|fs|))
    requires forall j :: 0 <= j < |fs| ==> !fs[j].tombstone && c.decode(fs[j].payload).Some?
    requires forall i :: 0 <= i < |t.rowIndex| ==> t.rowIndex[i].Some?
    ensures Open(c, t.schema, t.file) == Success(t)
  {
    OpenTracks(c, t.schema, fs);
    AllLive(fs, 0);
    var t' := Open(c, t.schema, t.file).value;
    assert |t'.rowIndex| == |t.rowIndex|;
    assert forall k :: 0 <= k < |t.rowIndex| ==> t'.rowIndex[k] == t.rowIndex[k];
    assert t'.rowIndex == t.rowIndex;
    assert t' == t;
  }

  // ---------------------------------------------------------------------
  // The disk database's table registry.

  datatype DiskDatabase = DiskDatabase(tables: map<string, DiskTable>)

  /** `DiskDatabase._create_table`: validates the schema, rejects a name
      already registered, then opens the table's data file, whose current
      content is `existing` (empty when the file does not exist yet). The
      empty cursor it returns is not modelled. */
  function CreateTable(c: Codec, db: DiskDatabase, q: Query.Query, existing: seq<byte>)
    : (r: Result<DiskDatabase, Error>)
    requires q.CreateTable?
    ensures CheckSchema(q.schema).Some? ==> r == Failure(CheckSchema(q.schema).value)
    ensures ValidSchema(q.schema) && q.schema.name in db.tables ==> r == Failure(TableExists(q.schema.name))
    ensures r.Success? <==>
      ValidSchema(q.schema) && q.schema.name !in db.tables && Open(c, q.schema, existing).Success?
    ensures r.Success? ==> r.value.tables == db.tables[q.schema.name := Open(c, q.schema, existing).value]
  {
    match CheckSchema(q.schema)
    case Some(e) => Failure(e)
    case None =>
      if q.schema.name in db.tables then Failure(TableExists(q.schema.name))
      else
        var t :- Open(c, q.schema, existing);
        Success(DiskDatabase(db.tables[q.schema.name := t]))
  }

  /** `DiskDatabase._insert`: rejects, in this order, a column/value count
      mismatch, an unknown table and columns other than the schema's names
      in order; otherwise inserts the values as one row and returns that
      row as a one-row cursor. Only the named table changes. */
  function InsertQuery(c: Codec, db: DiskDatabase, q: Query.Query)
    : (r: Result<(DiskDatabase, seq<Row>), Error>)
    requires q.Insert?
    ensures |q.columns| != |q.values| ==> r == Failure(ColumnsDontMatchValues)
    ensures |q.columns| == |q.values| && q.table !in db.tables ==> r == Failure(UnknownTable(q.table))
    ensures (|q.columns| == |q.values| && q.table in db.tables &&
      q.columns != ColumnNames(db.tables[q.table].schema)) ==> r == Failure(ColumnsDontMatchSchema)
    ensures r.Success? ==> q.table in db.tables && q.columns == ColumnNames(db.tables[q.table].schema)
    ensures (|q.columns| == |q.values| && q.table in db.tables &&
      q.columns == ColumnNames(db.tables[q.table].schema)) ==>
      (r.Success? <==> Insert(c, db.tables[q.table], q.values).Success?)
    ensures (|q.columns| == |q.values| && q.table in db.tables &&
      q.columns == ColumnNames(db.tables[q.table].schema) && Insert(c, db.tables[q.table], q.values).Failure?) ==>
      r == Failure(Insert(c, db.tables[q.table], q.values).error)
    ensures r.Success? ==> Insert(c, db.tables[q.table], q.values).Success?
    ensures r.Success? ==> r.value.1 == [q.values]
    ensures r.Success? ==> r.value.0.tables.Keys == db.tables.Keys
    ensures r.Success? ==> forall n :: n in db.tables && n != q.table ==> r.value.0.tables[n] == db.tables[n]
    ensures r.Success? ==> r.value.0.tables[q.table] == Insert(c, db.tables[q.table], q.values).value.0
  {
    if |q.columns| != |q.values| then Failure(ColumnsDontMatchValues)
    else if q.table !in db.tables then Failure(UnknownTable(q.table))
    else
      var t := db.tables[q.table];
      if q.columns != ColumnNames(t.schema) then Failure(ColumnsDontMatchSchema)
      else
        var (t', _, row) :- Insert(c, t, q.values);
        Success((DiskDatabase(db.tables[q.table := t']), [row]))
  }

  /** An invalid schema never reaches the registry, whatever the file holds. */
  lemma CreateRejectsInvalidSchema(c: Codec, db: DiskDatabase, schema: Schema, existing: seq<byte>)
    requires !ValidSchema(schema)
    ensures CreateTable(c, db, Query.CreateTable(schema), existing).Failure?
    ensures CreateTable(c, db, Query.CreateTable(schema), existing).error.SchemaError?
  {
  }

  /** The schemas the planner sees. */
  function Schemas(db: DiskDatabase): (m: map<string, Schema>)
    ensures m.Keys == db.tables.Keys
    ensures forall n :: n in db.tables ==> m[n] == db.tables[n].schema
  {
    map n | n in db.tables :: db.tables[n].schema
  }

  /** `DiskTable.rows()` for each registered table. */
  function RowsOf(c: Codec, db: DiskDatabase): string -> Result<seq<Row>, Error> {
    n => if n in db.tables then Rows(c, db.tables[n]) else Failure(UnknownTable(n))
  }

  /** `DiskDatabase._select`: plan the query, then execute the plan over the
      tables' live rows. */
  function Select(c: Codec, db: DiskDatabase, q: Query.Query): Result<seq<Row>, Error>
    requires q.Select?
  {
    var plan :- Planner.PlanQuery(Schemas(db), q);
    Planner.Exec(plan, RowsOf(c, db))
  }

  /** Selecting every column, without WHERE, returns the live rows in file
      order. */
  lemma SelectAllReturnsLiveRows(c: Codec, db: DiskDatabase, name: string)
    requires name in db.tables && Distinct(ColumnNames(db.tables[name].schema))
    requires Rows(c, db.tables[name]).Success?
    ensures Select(c, db, Query.Select(ColumnNames(db.tables[name].schema), Query.From(name), None))
      == Rows(c, db.tables[name])
  {
    Planner.SelectAllReturnsRows(Schemas(db), name, RowsOf(c, db), Rows(c, db.tables[name]).value);
  }

  /** Through a lossless codec, an INSERT followed by SELECT of every
      column returns the table's earlier live rows, then the inserted
      values. */
  lemma InsertThenSelectAll(c: Codec, db: DiskDatabase, q: Query.Query, fs: seq<Frame>, slot: seq<nat>)
    requires Lossless(c) && q.Insert? && InsertQuery(c, db, q).Success?
    requires Tracks(db.tables[q.table], fs, slot) && Rows(c, db.tables[q.table]).Success?
    requires Distinct(ColumnNames(db.tables[q.table].schema))
    ensures Select(c, InsertQuery(c, db, q).value.0, Query.Select(q.columns, Query.From(q.table), None))
      == Success(Rows(c, db.tables[q.table]).value + [q.values])
  {
    var t := db.tables[q.table];
    var db' := InsertQuery(c, db, q).value.0;
    assert db'.tables[q.table].schema == t.schema;
    RowsAfterInsert(c, t, fs, slot, q.values);
    SelectAllReturnsLiveRows(c, db', q.table);
  }
}

=== FILE: errors.dfy ===
/** The error conditions the engine raises, as one closed enumeration. Each
    constructor stands for one Python exception the source raises (the raised
    type is named in the comment). */
module Errors {

  /** The reasons `check_schema` rejects a schema (all raise `SchemaError`). */
  datatype SchemaFault = EmptyTableName | NoColumns | DuplicateColumnName | EmptyColumnName

  datatype Error =
    | SchemaError(fault: SchemaFault)
    // ValueError raised by the database facades and tables
    | TableExists(name: string)
    // ValueError from a database facade, and the planner's KeyError for a
    // table missing from its table map
    | UnknownTable(name: string)
    | ColumnsDontMatchValues
    | ColumnsDontMatchSchema
    | NoSuchRow(rowid: nat)
    // ValueError("row is removed") from HeapFile.get
    | RowRemoved
    // struct.error: a header read at the end of the file returned fewer than 5 bytes
    | ShortHeader
    // struct.error: a payload length that does not fit the 4-byte size field
    | SizeOverflow
    // a live record whose payload runs past the end of the file
    | TruncatedPayload
    // the payload codec could not decode a record
    | CorruptPayload
    // IndexError: a row id past the end of the row index
    | RowIdOutOfRange(rowid: nat)
    // ValueError from check_type
    | WrongType
    // NotImplementedError from the planner
    | NotImplemented
    // KeyError from the BINOPS table
    | UnknownOperator(op: string)
    // StopIteration from Schema.columnid on a WHERE operand (inside
    // `columnids` it ends the iteration instead of escaping)
    | UnknownColumn(name: string)
    // IndexError: a column position past the end of a row
    | ColumnOutOfRange(column: nat)
    // TypeError: ordering a number against a string
    | Incomparable
    // AssertionError from an `assert` in the source
    | AssertionFailed
    // AttributeError: an attribute looked up on an object that lacks it
    | MissingAttribute
}

=== FILE: heap_file.dfy ===
/** The append-only heap file of pydb/disk.py (RowHeader and HeapFile). The
    file is its byte content; a record is a 5-byte header (4-byte
    little-endian unsigned payload size, then a 1-byte tombstone flag)
    followed by the payload. Payloads are opaque bytes here: the row codec
    sits one layer up, in the disk table. */
module HeapFile {
  import opened Wrappers
  import opened Errors

  type byte = x: int | 0 <= x < 256

  const HEADER_SIZE: nat := 5
  const U32_LIMIT: nat := 0x1_0000_0000

  datatype Header = Header(size: nat, tombstone: bool)

  /** `width` little-endian bytes of `n`, the low byte first; digits above
      the width are dropped. */
  function LittleEndian(n: nat, width: nat): (b: seq<byte>)
    ensures |b| == width
  {
    if width == 0 then [] else [n % 256] + LittleEndian(n / 256, width - 1)
  }

  /** The number little-endian bytes `b` spell. */
  function FromLittleEndian(b: seq<byte>): nat {
    if |b| == 0 then 0 else b[0] + 256 * FromLittleEndian(b[1..])
  }

  function Pow256(width: nat): (p: nat)
    ensures p >= 1
  {
    if width == 0 then 1 else 256 * Pow256(width - 1)
  }

  lemma {:induction false} FromLittleEndianBound(b: seq<byte>)
    ensures FromLittleEndian(b) < Pow256(|b|)
  {
    if |b| > 0 {
      FromLittleEndianBound(b[1..]);
    }
  }

  lemma {:induction false} DecodeEncodeLittleEndian(n: nat, width: nat)
    requires n < Pow256(width)
    ensures FromLittleEndian(LittleEndian(n, width)) == n
  {
    if width > 0 {
      var b := LittleEndian(n, width);
      assert b[1..] == LittleEndian(n / 256, width - 1);
      DecodeEncodeLittleEndian(n / 256, width - 1);
    }
  }

  lemma {:induction false} EncodeDecodeLittleEndian(b: seq<byte>)
    ensures LittleEndian(FromLittleEndian(b), |b|) == b
  {
    if |b| > 0 {
      var n := FromLittleEndian(b);
      var m := FromLittleEndian(b[1..]);
      assert n % 256 == b[0] && n / 256 == m;
      EncodeDecodeLittleEndian(b[1..]);
      assert b == [b[0]] + b[1..];
    }
  }

  /** The 4-byte little-endian unsigned field of `struct` format `<L`. */
  function EncodeU32(n: nat): (b: seq<byte>)
    requires n < U32_LIMIT
    ensures |b| == 4
  {
    LittleEndian(n, 4)
  }

  function DecodeU32(b: seq<byte>): (n: nat)
    requires |b| == 4
    ensures n < U32_LIMIT
  {
    FromLittleEndianBound(b);
    assert Pow256(4) == U32_LIMIT;
    FromLittleEndian(b)
  }

  lemma DecodeEncodeU32(n: nat)
    requires n < U32_LIMIT
    ensures DecodeU32(EncodeU32(n)) == n
  {
    assert Pow256(4) == U32_LIMIT;
    DecodeEncodeLittleEndian(n, 4);
  }

  lemma EncodeDecodeU32(b: seq<byte>)
    requires |b| == 4
    ensures EncodeU32(DecodeU32(b)) == b
  {
    EncodeDecodeLittleEndian(b);
  }

  /** The byte `struct.pack("?")` writes for a flag. */
  function FlagByte(t: bool): byte {
    if t then 1 else 0
  }

  /** `RowHeader.write`: `struct.pack("<L?", size, tombstone)`, which raises
      when the size does not fit in 32 bits. */
  function EncodeHeader(h: Header): (r: Result<seq<byte>, Error>)
    ensures r.Success? <==> h.size < U32_LIMIT
    ensures r.Failure? ==> r.error == SizeOverflow
    ensures r.Success? ==> |r.value| == HEADER_SIZE
    ensures r.Success? ==> r.value[4] == FlagByte(h.tombstone)
  {
    if h.size < U32_LIMIT then Success(EncodeU32(h.size) + [FlagByte(h.tombstone)])
    else Failure(SizeOverflow)
  }

  /** `RowHeader.read`: `struct.unpack("<L?", ...)` needs exactly 5 bytes, and
      any non-zero flag byte reads as true. */
  function DecodeHeader(b: seq<byte>): (r: Result<Header, Error>)
    ensures r.Success? <==> |b| == HEADER_SIZE
    ensures r.Failure? ==> r.error == ShortHeader
    ensures r.Success? ==> r.value.size < U32_LIMIT
    ensures r.Success? ==> (r.value.tombstone <==> b[4] != 0)
  {
    if |b| == HEADER_SIZE then Success(Header(DecodeU32(b[..4]), b[4] != 0))
    else Failure(ShortHeader)
  }

  /** Decoding an encoded header gives it back. */
  lemma HeaderRoundTrip(h: Header)
    requires h.size < U32_LIMIT
    ensures DecodeHeader(EncodeHeader(h).value) == Success(h)
  {
    var b := EncodeHeader(h).value;
    assert b[..4] == EncodeU32(h.size);
    DecodeEncodeU32(h.size);
  }

  /** Re-encoding a decoded header with the same flag byte gives the bytes
      back. */
  lemma HeaderBytesRoundTrip(b: seq<byte>)
    requires |b| == HEADER_SIZE && b[4] <= 1
    ensures EncodeHeader(DecodeHeader(b).value) == Success(b)
  {
    EncodeDecodeU32(b[..4]);
    assert b == b[..4] + [b[4]];
  }

  /** The bytes a read of up to `n` bytes at `off` returns: fewer at the end
      of the file, none past it. */
  function ReadAt(f: seq<byte>, off: nat, n: nat): (r: seq<byte>)
    ensures |r| <= n
    ensures off + n <= |f| ==> r == f[off..off + n]
  {
    if off >= |f| then [] else if off + n <= |f| then f[off..off + n] else f[off..]
  }

  /** Seek to `off` and read a header. */
  function ReadHeader(f: seq<byte>, off: nat): (r: Result<Header, Error>)
    ensures r.Success? <==> off + HEADER_SIZE <= |f|
  {
    DecodeHeader(ReadAt(f, off, HEADER_SIZE))
  }

  /** `HeapFile.append`: writes a live header and the payload at the end of
      the file and returns the old end-of-file offset. */
  function Append(f: seq<byte>, payload: seq<byte>): (r: Result<(seq<byte>, nat), Error>)
    ensures r.Success? <==> |payload| < U32_LIMIT
    ensures r.Failure? ==> r.error == SizeOverflow
    ensures r.Success? ==> r.value.1 == |f|
    ensures r.Success? ==> |r.value.0| == |f| + HEADER_SIZE + |payload|
    ensures r.Success? ==> r.value.0[..|f|] == f
    ensures r.Success? ==> ReadHeader(r.value.0, |f|) == Success(Header(|payload|, false))
    ensures r.Success? ==> r.value.0[|f| + HEADER_SIZE..] == payload
  {
    var header :- EncodeHeader(Header(|payload|, false));
    var f' := f + header + payload;
    assert f'[|f|..|f| + HEADER_SIZE] == header;
    HeaderRoundTrip(Header(|payload|, false));
    Success((f', |f|))
  }

  /** `HeapFile.get`: reads the header at `off`; a tombstoned record fails
      with "row is removed", a live one yields its payload. A payload that
      runs past the end of the file cannot be decoded. */
  function Get(f: seq<byte>, off: nat): (r: Result<seq<byte>, Error>)
    ensures r.Success? ==> ReadHeader(f, off) == Success(Header(|r.value|, false))
    ensures r.Success? ==> off + HEADER_SIZE + |r.value| <= |f|
    ensures r.Success? ==> r.value == f[off + HEADER_SIZE..off + HEADER_SIZE + |r.value|]
    ensures r == Failure(RowRemoved) <==> ReadHeader(f, off).Success? && ReadHeader(f, off).value.tombstone
    ensures ReadHeader(f, off).Success? && !ReadHeader(f, off).value.tombstone ==>
      (r.Success? <==> off + HEADER_SIZE + ReadHeader(f, off).value.size <= |f|)
  {
    var h :- ReadHeader(f, off);
    if h.tombstone then Failure(RowRemoved)
    else if off + HEADER_SIZE + h.size > |f| then Failure(TruncatedPayload)
    else Success(f[off + HEADER_SIZE..off + HEADER_SIZE + h.size])
  }

  /** `HeapFile.remove`: sets the tombstone flag of the record at `off` in
      place unless it is already set. Only the flag byte can change, the
      file keeps its length, and a second removal changes nothing. */
  function Remove(f: seq<byte>, off: nat): (r: Result<seq<byte>, Error>)
    ensures r.Success? <==> off + HEADER_SIZE <= |f|
    ensures r.Failure? ==> r.error == ShortHeader
    ensures r.Success? ==> |r.value| == |f|
    ensures r.Success? ==> forall j :: 0 <= j < |f| && j != off + 4 ==> r.value[j] == f[j]
    ensures r.Success? ==> r.value[off + 4] == (if f[off + 4] == 0 then 1 else f[off + 4])
    ensures r.Success? ==> ReadHeader(r.value, off).value.tombstone
  {
    var h :- ReadHeader(f, off);
    if h.tombstone then Success(f)
    else
      var b := f[off..off + HEADER_SIZE];
      HeaderBytesRoundTrip(b);
      var header := EncodeHeader(Header(h.size, true)).value;
      assert header == b[..4] + [1];
      SpliceHeader(f, off, header);
      Success(f[..off] + header + f[off + HEADER_SIZE..])
  }

  /** Writing a header over the one at `off` whose size bytes agree changes
      only the flag byte. */
  lemma SpliceHeader(f: seq<byte>, off: nat, header: seq<byte>)
    requires off + HEADER_SIZE <= |f| && |header| == HEADER_SIZE
    requires header[..4] == f[off..off + 4]
    ensures |f[..off] + header + f[off + HEADER_SIZE..]| == |f|
    ensures forall j :: 0 <= j < |f| && j != off + 4 ==> (f[..off] + header + f[off + HEADER_SIZE..])[j] == f[j]
    ensures (f[..off] + header + f[off + HEADER_SIZE..])[off + 4] == header[4]
    ensures (f[..off] + header + f[off + HEADER_SIZE..])[off..off + HEADER_SIZE] == header
  {
    var g := f[..off] + header + f[off + HEADER_SIZE..];
    forall j | 0 <= j < |f| && j != off + 4
      ensures g[j] == f[j]
    {
      if off <= j < off + 4 {
        assert g[j] == header[j - off] == header[..4][j - off];
      }
    }
    assert g[off..off + HEADER_SIZE] == header;
  }

  lemma RemoveIdempotent(f: seq<byte>, off: nat)
    requires Remove(f, off).Success?
    ensures Remove(Remove(f, off).value, off) == Remove(f, off)
  {
  }

  /** One entry of a scan: the record's offset and its payload. */
  type Entry = (nat, seq<byte>)

  /** The loop of `HeapFile.scan` from `off`: tombstoned records are skipped
      by their size, live ones are yielded. A header cut short by the end of
      the file, or a live payload running past it, fails the scan. */
  function ScanFrom(f: seq<byte>, off: nat): Result<seq<Entry>, Error>
    decreases |f| - off
  {
    if off >= |f| then Success([])
    else
      var h :- ReadHeader(f, off);
      var next := off + HEADER_SIZE + h.size;
      if h.tombstone then ScanFrom(f, next)
      else if next > |f| then Failure(TruncatedPayload)
      else
        var rest :- ScanFrom(f, next);
        Success([(off, f[off + HEADER_SIZE..next])] + rest)
  }

  /** Every entry a scan yields lies in the file at or after the start,
      the offsets strictly increase, and `get` at each offset returns the
      yielded payload. */
  lemma {:induction false} ScanFromEntries(f: seq<byte>, off: nat)
    requires ScanFrom(f, off).Success?
    ensures var es := ScanFrom(f, off).value;
      forall k :: 0 <= k < |es| ==> off <= es[k].0 < |f| && Get(f, es[k].0) == Success(es[k].1)
    ensures var es := ScanFrom(f, off).value;
      forall k, l :: 0 <= k < l < |es| ==> es[k].0 < es[l].0
    decreases |f| - off
  {
    if off < |f| {
      var h := ReadHeader(f, off).value;
      var next := off + HEADER_SIZE + h.size;
      ScanFromEntries(f, next);
      if !h.tombstone {
        var rest := ScanFrom(f, next).value;
        var es := ScanFrom(f, off).value;
        assert es == [(off, f[off + HEADER_SIZE..next])] + rest;
        assert Get(f, off) == Success(f[off + HEADER_SIZE..next]);
      }
    }
  }

  /** `HeapFile.scan(start)`. */
  function Scan(f: seq<byte>, start: nat): Result<seq<Entry>, Error> {
    ScanFrom(f, start)
  }

  /** A record appended to any file can be read back at the returned
      offset. */
  lemma AppendThenGet(f: seq<byte>, payload: seq<byte>)
    requires |payload| < U32_LIMIT
    ensures Get(Append(f, payload).value.0, Append(f, payload).value.1) == Success(payload)
  {
    var (f', off) := Append(f, payload).value;
    assert f'[off + HEADER_SIZE..off + HEADER_SIZE + |payload|] == payload;
  }

  // ---------------------------------------------------------------------
  // A well-formed file: frames laid out contiguously from offset 0.

  /** One record as laid out in the file. */
  datatype Frame = Frame(tombstone: bool, payload: seq<byte>)

  ghost predicate WellSized(fs: seq<Frame>) {
    forall i :: 0 <= i < |fs| ==> |fs[i].payload| < U32_LIMIT
  }

  /** The bytes of one record: header, then payload. */
  function FrameBytes(fr: Frame): (b: seq<byte>)
    requires |fr.payload| < U32_LIMIT
    ensures |b| == HEADER_SIZE + |fr.payload|
  {
    EncodeHeader(Header(|fr.payload|, fr.tombstone)).value + fr.payload
  }

  /** The file holding `fs` back to back from offset 0. */
  function Serialize(fs: seq<Frame>): seq<byte>
    requires WellSized(fs)
  {
    if |fs| == 0 then [] else FrameBytes(fs[0]) + Serialize(fs[1..])
  }

  /**
   * The offset of record `i`: the total size of the records before it.
   *
   * The offset of a record appended to `fs` is stated as `|Serialize(fs)|`
   * (the old file length) throughout, and SerializeSnoc is the one bridge
   * to `Offset(fs + [fr], |fs|)`.  Dafny 4.11 derives `false` from a
   * precondition that pairs `Serialize(fs + [fr])` with a sequence display
   * such as `[Some(Offset(fs + [fr], |fs|))]` (any function applied to
   * `|fs|` in place of Offset does the same), so no contract here is
   * written in that shape.
   */
  function Offset(fs: seq<Frame>, i: nat): nat
    requires WellSized(fs) && i <= |fs|
  {
    |Serialize(fs[..i])|
  }

  lemma {:induction false} SerializeConcat(fs: seq<Frame>, gs: seq<Frame>)
    requires WellSized(fs) && WellSized(gs)
    ensures WellSized(fs + gs)
    ensures Serialize(fs + gs) == Serialize(fs) + Serialize(gs)
    decreases |fs|
  {
    if |fs| > 0 {
      assert (fs + gs)[1..] == fs[1..] + gs;
      SerializeConcat(fs[1..], gs);
    } else {
      assert fs + gs == gs;
    }
  }

  /** The file splits around record `i`. */
  lemma SerializeSplit(fs: seq<Frame>, i: nat)
    requires WellSized(fs) && i < |fs|
    ensures Serialize(fs) == Serialize(fs[..i]) + FrameBytes(fs[i]) + Serialize(fs[i + 1..])
  {
    SerializeAt(fs, i);
    SerializeFrom(fs, i);
    Associative(Serialize(fs[..i]), FrameBytes(fs[i]), Serialize(fs[i + 1..]));
  }

  lemma {:induction false} SerializeAt(fs: seq<Frame>, i: nat)
    requires WellSized(fs) && i <= |fs|
    ensures WellSized(fs[..i]) && WellSized(fs[i..])
    ensures Serialize(fs) == Serialize(fs[..i]) + Serialize(fs[i..])
    decreases i
  {
    assert WellSized(fs[..i]) && WellSized(fs[i..]);
    if i == 0 {
      assert fs[..0] == [] && fs[0..] == fs;
    } else {
      var rest := fs[1..];
      assert WellSized(rest);
      SerializeAt(rest, i - 1);
      assert rest[i - 1..] == fs[i..];
      assert Serialize(fs[..i]) == FrameBytes(fs[0]) + Serialize(rest[..i - 1]) by {
        assert fs[..i][0] == fs[0] && fs[..i][1..] == rest[..i - 1];
      }
      Associative(FrameBytes(fs[0]), Serialize(rest[..i - 1]), Serialize(fs[i..]));
    }
  }

  lemma SerializeFrom(fs: seq<Frame>, i: nat)
    requires WellSized(fs) && i < |fs|
    ensures WellSized(fs[i..]) && WellSized(fs[i + 1..])
    ensures Serialize(fs[i..]) == FrameBytes(fs[i]) + Serialize(fs[i + 1..])
  {
    assert fs[i..][0] == fs[i] && fs[i..][1..] == fs[i + 1..];
  }

  lemma Associative<T>(a: seq<T>, b: seq<T>, c: seq<T>)
    ensures a + (b + c) == (a + b) + c
  {
  }

  /** Each record advances the offset by its header and payload. */
  lemma OffsetStep(fs: seq<Frame>, i: nat)
    requires WellSized(fs) && i < |fs|
    ensures Offset(fs, i + 1) == Offset(fs, i) + HEADER_SIZE + |fs[i].payload|
  {
    assert fs[..i + 1] == fs[..i] + [fs[i]];
    SerializeConcat(fs[..i], [fs[i]]);
  }

  lemma {:induction false} OffsetEnd(fs: seq<Frame>)
    requires WellSized(fs)
    ensures Offset(fs, |fs|) == |Serialize(fs)|
  {
    assert fs[..|fs|] == fs;
  }

  /** Offsets strictly increase with the record number. */
  lemma {:induction false} OffsetIncreasing(fs: seq<Frame>, i: nat, j: nat)
    requires WellSized(fs) && i < j <= |fs|
    ensures Offset(fs, i) < Offset(fs, j)
    decreases j - i
  {
    OffsetStep(fs, j - 1);
    if i < j - 1 {
      OffsetIncreasing(fs, i, j - 1);
    }
  }

  /** A record sitting at offset `|p|` between arbitrary bytes reads back
      as its header and payload. */
  lemma FrameAt(p: seq<byte>, fr: Frame, rest: seq<byte>)
    requires |fr.payload| < U32_LIMIT
    ensures var f := p + FrameBytes(fr) + rest;
      && ReadHeader(f, |p|) == Success(Header(|fr.payload|, fr.tombstone))
      && f[|p| + HEADER_SIZE..|p| + HEADER_SIZE + |fr.payload|] == fr.payload
  {
    var f := p + FrameBytes(fr) + rest;
    var h := Header(|fr.payload|, fr.tombstone);
    assert f[|p|..|p| + HEADER_SIZE] == EncodeHeader(h).value;
    HeaderRoundTrip(h);
    assert f[|p| + HEADER_SIZE..|p| + HEADER_SIZE + |fr.payload|] == fr.payload;
  }

  /** The header and payload of record `i`, read at its offset. */
  lemma ReadFrame(fs: seq<Frame>, i: nat)
    requires WellSized(fs) && i < |fs|
    ensures ReadHeader(Serialize(fs), Offset(fs, i)) == Success(Header(|fs[i].payload|, fs[i].tombstone))
    ensures Offset(fs, i) + HEADER_SIZE + |fs[i].payload| <= |Serialize(fs)|
    ensures Serialize(fs)[Offset(fs, i) + HEADER_SIZE..Offset(fs, i) + HEADER_SIZE + |fs[i].payload|]
      == fs[i].payload
  {
    SerializeSplit(fs, i);
    FrameAt(Serialize(fs[..i]), fs[i], Serialize(fs[i + 1..]));
  }

  /** Appending to a well-formed file adds one live record at the old end. */
  lemma AppendFrame(fs: seq<Frame>, payload: seq<byte>)
    requires WellSized(fs) && |payload| < U32_LIMIT
    ensures WellSized(fs + [Frame(false, payload)])
    ensures Append(Serialize(fs), payload)
      == Success((Serialize(fs + [Frame(false, payload)]), |Serialize(fs)|))
  {
    var fr := Frame(false, payload);
    SerializeSnoc(fs, fr);
    AppendBytes(Serialize(fs), payload);
  }

  /** Appending a record leaves the earlier records where they were. */
  lemma AppendKeepsOffsets(fs: seq<Frame>, fr: Frame)
    requires WellSized(fs) && WellSized(fs + [fr])
    ensures forall i :: 0 <= i <= |fs| ==> Offset(fs + [fr], i) == Offset(fs, i)
  {
    forall i | 0 <= i <= |fs| ensures Offset(fs + [fr], i) == Offset(fs, i) {
      assert (fs + [fr])[..i] == fs[..i];
    }
  }

  lemma SerializeSnoc(fs: seq<Frame>, fr: Frame)
    requires WellSized(fs) && |fr.payload| < U32_LIMIT
    ensures WellSized(fs + [fr])
    ensures Serialize(fs + [fr]) == Serialize(fs) + FrameBytes(fr)
    ensures Offset(fs + [fr], |fs|) == |Serialize(fs)|
  {
    assert Serialize([fr]) == FrameBytes(fr) by {
      assert [fr][1..] == [];
    }
    SerializeConcat(fs, [fr]);
    assert (fs + [fr])[..|fs|] == fs;
  }

  /** The bytes `append` writes: one live record. */
  lemma AppendBytes(f: seq<byte>, payload: seq<byte>)
    requires |payload| < U32_LIMIT
    ensures Append(f, payload) == Success((f + FrameBytes(Frame(false, payload)), |f|))
  {
    Associative(f, EncodeHeader(Header(|payload|, false)).value, payload);
  }

  /** `get` at the offset of a record sitting between arbitrary bytes. */
  lemma GetAt(p: seq<byte>, fr: Frame, rest: seq<byte>)
    requires |fr.payload| < U32_LIMIT
    ensures Get(p + FrameBytes(fr) + rest, |p|)
      == if fr.tombstone then Failure(RowRemoved) else Success(fr.payload)
  {
    FrameAt(p, fr, rest);
  }

  /** `get` at a record's offset: its payload, or "row is removed". */
  lemma GetFrame(fs: seq<Frame>, i: nat)
    requires WellSized(fs) && i < |fs|
    ensures Get(Serialize(fs), Offset(fs, i))
      == if fs[i].tombstone then Failure(RowRemoved) else Success(fs[i].payload)
  {
    SerializeSplit(fs, i);
    GetAt(Serialize(fs[..i]), fs[i], Serialize(fs[i + 1..]));
  }

  /** Frames with the same payloads, whatever their flags, lie at the same
      offsets. */
  lemma {:induction false} SameShapeSameOffsets(fs: seq<Frame>, gs: seq<Frame>)
    requires WellSized(fs) && |gs| == |fs|
    requires forall i :: 0 <= i < |fs| ==> gs[i].payload == fs[i].payload
    ensures WellSized(gs)
    ensures |Serialize(gs)| == |Serialize(fs)|
    ensures forall i :: 0 <= i <= |fs| ==> Offset(gs, i) == Offset(fs, i)
    decreases |fs|
  {
    if |fs| > 0 {
      SameShapeSameOffsets(fs[1..], gs[1..]);
    }
    forall i | 0 <= i <= |fs| ensures Offset(gs, i) == Offset(fs, i) {
      if i < |fs| {
        SameShapeSameOffsets(fs[..i], gs[..i]);
      } else {
        assert fs[..i] == fs && gs[..i] == gs;
      }
    }
  }

  /** Marks record `i` removed. */
  function Tombstoned(fs: seq<Frame>, i: nat): (gs: seq<Frame>)
    requires i < |fs|
    ensures |gs| == |fs|
  {
    fs[i := Frame(true, fs[i].payload)]
  }

  /** `remove` at the offset of a record sitting between arbitrary bytes
      rewrites it as removed. */
  lemma RemoveAt(p: seq<byte>, fr: Frame, rest: seq<byte>)
    requires |fr.payload| < U32_LIMIT
    ensures Remove(p + FrameBytes(fr) + rest, |p|) == Success(p + FrameBytes(Frame(true, fr.payload)) + rest)
  {
    FrameAt(p, fr, rest);
    var f := p + FrameBytes(fr) + rest;
    if !fr.tombstone {
      var header := EncodeHeader(Header(|fr.payload|, true)).value;
      assert f[..|p|] == p;
      assert f[|p| + HEADER_SIZE..] == fr.payload + rest;
      Associative(p + header, fr.payload, rest);
      Associative(p, header, fr.payload);
    }
  }

  /** `remove` at a record's offset sets that record's flag and nothing
      else. */
  lemma RemoveFrame(fs: seq<Frame>, i: nat)
    requires WellSized(fs) && i < |fs|
    ensures WellSized(Tombstoned(fs, i))
    ensures Offset(Tombstoned(fs, i), i) == Offset(fs, i)
    ensures Remove(Serialize(fs), Offset(fs, i)) == Success(Serialize(Tombstoned(fs, i)))
  {
    TombstonedSplit(fs, i);
    SerializeSplit(fs, i);
    RemoveAt(Serialize(fs[..i]), fs[i], Serialize(fs[i + 1..]));
  }

  /** Marking record `i` removed changes only its own bytes. */
  lemma TombstonedSplit(fs: seq<Frame>, i: nat)
    requires WellSized(fs) && i < |fs|
    ensures WellSized(Tombstoned(fs, i))
    ensures Tombstoned(fs, i)[..i] == fs[..i]
    ensures Serialize(Tombstoned(fs, i))
      == Serialize(fs[..i]) + FrameBytes(Frame(true, fs[i].payload)) + Serialize(fs[i + 1..])
  {
    var gs := Tombstoned(fs, i);
    SameShapeSameOffsets(fs, gs);
    SerializeSplit(gs, i);
    assert gs[..i] == fs[..i] && gs[i + 1..] == fs[i + 1..];
  }

  /** The entries a scan from record `i` yields: the live records from `i`
      on, at their offsets, in file order. */
  function LiveEntriesFrom(fs: seq<Frame>, i: nat): seq<Entry>
    requires WellSized(fs) && i <= |fs|
    decreases |fs| - i
  {
    if i == |fs| then []
    else if fs[i].tombstone then LiveEntriesFrom(fs, i + 1)
    else [(Offset(fs, i), fs[i].payload)] + LiveEntriesFrom(fs, i + 1)
  }

  /** The numbers of the live records from `i` on, ascending. */
  function LiveFrom(fs: seq<Frame>, i: nat): (r: seq<nat>)
    requires i <= |fs|
    ensures forall k :: 0 <= k < |r| ==> i <= r[k] < |fs|
    decreases |fs| - i
  {
    if i == |fs| then []
    else if fs[i].tombstone then LiveFrom(fs, i + 1)
    else [i] + LiveFrom(fs, i + 1)
  }

  /** The scan of a well-formed file from record `i`'s offset yields exactly
      the live records from `i` on. */
  lemma {:induction false} ScanFramesFrom(fs: seq<Frame>, i: nat)
    requires WellSized(fs) && i <= |fs|
    ensures ScanFrom(Serialize(fs), Offset(fs, i)) == Success(LiveEntriesFrom(fs, i))
    decreases |fs| - i
  {
    if i < |fs| {
      ScanFramesFrom(fs, i + 1);
      ScanFramesStep(fs, i);
    } else {
      OffsetEnd(fs);
      assert ScanFrom(Serialize(fs), |Serialize(fs)|) == Success([]);
    }
  }

  /** The scan from record `i` is record `i`, if live, followed by the scan
      from record `i + 1`. */
  lemma ScanFramesStep(fs: seq<Frame>, i: nat)
    requires WellSized(fs) && i < |fs|
    requires ScanFrom(Serialize(fs), Offset(fs, i + 1)) == Success(LiveEntriesFrom(fs, i + 1))
    ensures ScanFrom(Serialize(fs), Offset(fs, i)) == Success(LiveEntriesFrom(fs, i))
  {
    var f, off, next := Serialize(fs), Offset(fs, i), Offset(fs, i + 1);
    assert && off < |f|
           && ReadHeader(f, off) == Success(Header(|fs[i].payload|, fs[i].tombstone))
           && off + HEADER_SIZE + |fs[i].payload| == next <= |f|
           && f[off + HEADER_SIZE..next] == fs[i].payload by {
      OffsetEnd(fs);
      ReadFrame(fs, i);
      OffsetStep(fs, i);
      OffsetIncreasing(fs, i, |fs|);
    }
    ScanFromStep(f, off, Header(|fs[i].payload|, fs[i].tombstone), next);
    if fs[i].tombstone {
      assert LiveEntriesFrom(fs, i) == LiveEntriesFrom(fs, i + 1);
    } else {
      assert LiveEntriesFrom(fs, i) == [(off, fs[i].payload)] + LiveEntriesFrom(fs, i + 1);
      assert ScanFrom(f, off) == Success([(off, fs[i].payload)] + LiveEntriesFrom(fs, i + 1));
    }
  }

  /** One step of the scan loop over a record that fits in the file: a
      removed record is skipped, a live one is yielded before the rest. */
  lemma ScanFromStep(f: seq<byte>, off: nat, h: Header, next: nat)
    requires off < |f| && ReadHeader(f, off) == Success(h)
    requires next == off + HEADER_SIZE + h.size <= |f|
    ensures h.tombstone ==> ScanFrom(f, off) == ScanFrom(f, next)
    ensures !h.tombstone && ScanFrom(f, next).Success? ==>
      ScanFrom(f, off) == Success([(off, f[off + HEADER_SIZE..next])] + ScanFrom(f, next).value)
  {
  }

  /** `scan()` of a well-formed file: the live records, at their offsets. */
  lemma ScanFrames(fs: seq<Frame>)
    requires WellSized(fs)
    ensures Scan(Serialize(fs), 0) == Success(LiveEntriesFrom(fs, 0))
  {
    assert fs[..0] == [];
    ScanFramesFrom(fs, 0);
  }

  /** The live record numbers from `i` on ascend, and are exactly the
      records from `i` on that are not removed. */
  lemma {:induction false} LiveFromSpec(fs: seq<Frame>, i: nat)
    requires i <= |fs|
    ensures forall k :: 0 <= k < |LiveFrom(fs, i)| ==>
      i <= LiveFrom(fs, i)[k] < |fs| && !fs[LiveFrom(fs, i)[k]].tombstone
    ensures forall k, l :: 0 <= k < l < |LiveFrom(fs, i)| ==> LiveFrom(fs, i)[k] < LiveFrom(fs, i)[l]
    ensures forall j :: i <= j < |fs| && !fs[j].tombstone ==> j in LiveFrom(fs, i)
    decreases |fs| - i
  {
    if i < |fs| {
      LiveFromSpec(fs, i + 1);
    }
  }

  /** No record number is listed twice. */
  lemma LiveFromDistinct(fs: seq<Frame>, i: nat)
    requires i <= |fs|
    ensures forall k, l :: 0 <= k < |LiveFrom(fs, i)| && 0 <= l < |LiveFrom(fs, i)| && k != l ==>
      LiveFrom(fs, i)[k] != LiveFrom(fs, i)[l]
  {
    var live := LiveFrom(fs, i);
    LiveFromSpec(fs, i);
    forall k, l | 0 <= k < |live| && 0 <= l < |live| && k != l
      ensures live[k] != live[l]
    {
      if k < l { assert live[k] < live[l]; } else { assert live[l] < live[k]; }
    }
  }

  /** The live entries are the live record numbers paired with their
      offsets and payloads. */
  lemma {:induction false} LiveEntriesAreLiveRecords(fs: seq<Frame>, i: nat)
    requires WellSized(fs) && i <= |fs|
    ensures |LiveEntriesFrom(fs, i)| == |LiveFrom(fs, i)|
    ensures forall k :: 0 <= k < |LiveFrom(fs, i)| ==>
      LiveEntriesFrom(fs, i)[k] == (Offset(fs, LiveFrom(fs, i)[k]), fs[LiveFrom(fs, i)[k]].payload)
    decreases |fs| - i
  {
    if i < |fs| {
      LiveEntriesAreLiveRecords(fs, i + 1);
      var e, l := LiveEntriesFrom(fs, i + 1), LiveFrom(fs, i + 1);
      if !fs[i].tombstone {
        assert LiveEntriesFrom(fs, i) == [(Offset(fs, i), fs[i].payload)] + e;
        assert LiveFrom(fs, i) == [i] + l;
      }
    }
  }

  /** With no removals, scanning yields every record, zipped with its
      offset. */
  lemma ScanWithoutRemovals(fs: seq<Frame>)
    requires WellSized(fs)
    requires forall i :: 0 <= i < |fs| ==> !fs[i].tombstone
    ensures Scan(Serialize(fs), 0).Success?
    ensures |Scan(Serialize(fs), 0).value| == |fs|
    ensures forall i :: 0 <= i < |fs| ==> Scan(Serialize(fs), 0).value[i] == (Offset(fs, i), fs[i].payload)
  {
    ScanFrames(fs);
    AllLive(fs, 0);
    LiveFromSpec(fs, 0);
    LiveEntriesAreLiveRecords(fs, 0);
  }

  lemma {:induction false} AllLive(fs: seq<Frame>, i: nat)
    requires i <= |fs|
    requires forall j :: 0 <= j < |fs| ==> !fs[j].tombstone
    ensures |LiveFrom(fs, i)| == |fs| - i
    ensures forall k :: 0 <= k < |fs| - i ==> LiveFrom(fs, i)[k] == i + k
    decreases |fs| - i
  {
    if i < |fs| {
      AllLive(fs, i + 1);
    }
  }

  /** The payloads of the live records from `i` on, in file order. */
  function LivePayloadsFrom(fs: seq<Frame>, i: nat): seq<seq<byte>>
    requires i <= |fs|
    decreases |fs| - i
  {
    if i == |fs| then []
    else if fs[i].tombstone then LivePayloadsFrom(fs, i + 1)
    else [fs[i].payload] + LivePayloadsFrom(fs, i + 1)
  }

  /** The scan's entries carry exactly the live payloads. */
  lemma {:induction false} LiveEntriesPayloads(fs: seq<Frame>, i: nat)
    requires WellSized(fs) && i <= |fs|
    ensures Seconds(LiveEntriesFrom(fs, i)) == LivePayloadsFrom(fs, i)
    decreases |fs| - i
  {
    if i < |fs| {
      LiveEntriesPayloads(fs, i + 1);
      if !fs[i].tombstone {
        var e := (Offset(fs, i), fs[i].payload);
        assert LiveEntriesFrom(fs, i) == [e] + LiveEntriesFrom(fs, i + 1);
        SecondsCons(e, LiveEntriesFrom(fs, i + 1));
      }
    }
  }

  /** The payloads of a list of scan entries. */
  function Seconds(es: seq<Entry>): (ps: seq<seq<byte>>)
    ensures |ps| == |es| && forall k :: 0 <= k < |es| ==> ps[k] == es[k].1
  {
    seq(|es|, k requires 0 <= k < |es| => es[k].1)
  }

  lemma SecondsCons(e: Entry, es: seq<Entry>)
    ensures Seconds([e] + es) == [e.1] + Seconds(es)
  {
  }

  /** A live record appended to the file comes last, after the live
      records already there. */
  lemma {:induction false} LivePayloadsSnoc(fs: seq<Frame>, fr: Frame, i: nat)
    requires i <= |fs| && !fr.tombstone
    ensures LivePayloadsFrom(fs + [fr], i) == LivePayloadsFrom(fs, i) + [fr.payload]
    decreases |fs| - i
  {
    var gs := fs + [fr];
    if i == |fs| {
      assert LivePayloadsFrom(gs, i + 1) == [];
    } else {
      LivePayloadsSnoc(fs, fr, i + 1);
      assert gs[i] == fs[i];
    }
  }

  /** Removing record `j` does not change the live records after it. */
  lemma {:induction false} LivePayloadsPastTombstone(fs: seq<Frame>, j: nat, i: nat)
    requires j < i <= |fs|
    ensures LivePayloadsFrom(Tombstoned(fs, j), i) == LivePayloadsFrom(fs, i)
    decreases |fs| - i
  {
    if i < |fs| {
      LivePayloadsPastTombstone(fs, j, i + 1);
      assert Tombstoned(fs, j)[i] == fs[i];
    }
  }

  /** Removing the live record `j` drops its payload, at position `p`
      among the live records, and keeps the others in order. */
  lemma {:induction false} LivePayloadsTombstoned(fs: seq<Frame>, j: nat, i: nat)
    requires i <= j < |fs| && !fs[j].tombstone
    ensures DropsAt(LivePayloadsFrom(fs, i), LivePayloadsFrom(Tombstoned(fs, j), i),
                    |LivePayloadsFrom(fs, i)| - |LivePayloadsFrom(fs, j + 1)| - 1, fs[j].payload)
    decreases j - i
  {
    if i == j {
      TombstonedHere(fs, j);
    } else {
      LivePayloadsTombstoned(fs, j, i + 1);
      TombstonedBefore(fs, j, i);
    }
  }

  lemma TombstonedHere(fs: seq<Frame>, j: nat)
    requires j < |fs| && !fs[j].tombstone
    ensures DropsAt(LivePayloadsFrom(fs, j), LivePayloadsFrom(Tombstoned(fs, j), j), 0, fs[j].payload)
  {
    var gs := Tombstoned(fs, j);
    LivePayloadsPastTombstone(fs, j, j + 1);
    var l := LivePayloadsFrom(fs, j + 1);
    assert LivePayloadsFrom(fs, j) == [fs[j].payload] + l;
    assert LivePayloadsFrom(gs, j) == LivePayloadsFrom(gs, j + 1) == l;
    DropsAtHead(fs[j].payload, l);
  }

  lemma TombstonedBefore(fs: seq<Frame>, j: nat, i: nat)
    requires i < j < |fs|
    requires DropsAt(LivePayloadsFrom(fs, i + 1), LivePayloadsFrom(Tombstoned(fs, j), i + 1),
                     |LivePayloadsFrom(fs, i + 1)| - |LivePayloadsFrom(fs, j + 1)| - 1, fs[j].payload)
    ensures DropsAt(LivePayloadsFrom(fs, i), LivePayloadsFrom(Tombstoned(fs, j), i),
                    |LivePayloadsFrom(fs, i)| - |LivePayloadsFrom(fs, j + 1)| - 1, fs[j].payload)
  {
    var gs := Tombstoned(fs, j);
    assert gs[i] == fs[i];
    if !fs[i].tombstone {
      var x := fs[i].payload;
      assert LivePayloadsFrom(fs, i) == [x] + LivePayloadsFrom(fs, i + 1);
      assert LivePayloadsFrom(gs, i) == [x] + LivePayloadsFrom(gs, i + 1);
      DropsAtCons(x, LivePayloadsFrom(fs, i + 1), LivePayloadsFrom(gs, i + 1),
                  |LivePayloadsFrom(fs, i + 1)| - |LivePayloadsFrom(fs, j + 1)| - 1, fs[j].payload);
    }
  }

  /** `b` is `a` with its element `x` at position `p` left out. */
  ghost predicate DropsAt<T>(a: seq<T>, b: seq<T>, p: int, x: T) {
    0 <= p < |a| && a == a[..p] + [x] + a[p + 1..] && b == a[..p] + a[p + 1..]
  }

  lemma DropsAtHead<T>(x: T, l: seq<T>)
    ensures DropsAt([x] + l, l, 0, x)
  {
    assert ([x] + l)[1..] == l;
  }

  lemma DropsAtCons<T>(y: T, a: seq<T>, b: seq<T>, p: int, x: T)
    requires DropsAt(a, b, p, x)
    ensures DropsAt([y] + a, [y] + b, p + 1, x)
  {
    assert ([y] + a)[..p + 1] == [y] + a[..p];
    assert ([y] + a)[p + 2..] == a[p + 1..];
  }
}

=== FILE: index.dfy ===
/** Index lookups (pydb/index.py): the hash index's `query` and the sorted
    sequence index's `scan`, `rscan` and inherited `find`. Keys of the sorted
    index are integers, which carry the total order `bisect` needs. */
module Index {
  import opened Wrappers

  /** `HashIndex.query`: the mapped value when `key` is present, otherwise
      `None`. The map is a value, so the query cannot change it. */
  function HashQuery<K, V>(index: map<K, V>, key: K): (r: Option<V>)
    ensures r.Some? <==> key in index
    ensures r.Some? ==> r.value == index[key]
  {
    if key in index then Some(index[key]) else None
  }

  /** `HashIndex.find` as written: HashIndex does not override `find`, so it
      inherits `Index.find`, whose body is `pass` and which returns `None`
      whatever the map holds. */
  function HashFindAsWritten<K, V>(index: map<K, V>, key: K): Option<V> {
    None
  }

  /** The inherited `find` misses a key the map holds. */
  lemma HashFindAsWrittenMisses()
    ensures HashQuery(map[1 := 7], 1) == Some(7)
    ensures HashFindAsWritten(map[1 := 7], 1) == None
  {
  }

  /** `find` on a hash index as evidently intended: the same answer as
      `query`. */
  function HashFind<K, V>(index: map<K, V>, key: K): (r: Option<V>)
    ensures r.Some? <==> key in index
    ensures r.Some? ==> r.value == index[key]
  {
    HashQuery(index, key)
  }

  ghost predicate Sorted(a: seq<int>) {
    forall i, j :: 0 <= i <= j < |a| ==> a[i] <= a[j]
  }

  ghost predicate StrictlyIncreasing(a: seq<int>) {
    forall i, j :: 0 <= i < j < |a| ==> a[i] < a[j]
  }

  ghost predicate Descending(a: seq<int>) {
    forall i, j :: 0 <= i <= j < |a| ==> a[i] >= a[j]
  }

  /** The binary search of Python's `bisect.bisect_left` on `a[lo:hi]`. */
  function BisectLeftIn(a: seq<int>, x: int, lo: nat, hi: nat): (r: nat)
    requires lo <= hi <= |a|
    ensures lo <= r <= hi
    decreases hi - lo
  {
    if lo < hi then
      var mid := (lo + hi) / 2;
      if a[mid] < x then BisectLeftIn(a, x, mid + 1, hi) else BisectLeftIn(a, x, lo, mid)
    else lo
  }

  /** The binary search of Python's `bisect.bisect_right` on `a[lo:hi]`. */
  function BisectRightIn(a: seq<int>, x: int, lo: nat, hi: nat): (r: nat)
    requires lo <= hi <= |a|
    ensures lo <= r <= hi
    decreases hi - lo
  {
    if lo < hi then
      var mid := (lo + hi) / 2;
      if x < a[mid] then BisectRightIn(a, x, lo, mid) else BisectRightIn(a, x, mid + 1, hi)
    else lo
  }

  function BisectLeft(a: seq<int>, x: int): nat {
    BisectLeftIn(a, x, 0, |a|)
  }

  function BisectRight(a: seq<int>, x: int): nat {
    BisectRightIn(a, x, 0, |a|)
  }

  lemma {:induction false} BisectLeftInSplits(a: seq<int>, x: int, lo: nat, hi: nat)
    requires Sorted(a) && lo <= hi <= |a|
    requires forall i :: 0 <= i < lo ==> a[i] < x
    requires forall i :: hi <= i < |a| ==> a[i] >= x
    ensures var r := BisectLeftIn(a, x, lo, hi);
      (forall i :: 0 <= i < r ==> a[i] < x) && (forall i :: r <= i < |a| ==> a[i] >= x)
    decreases hi - lo
  {
    if lo < hi {
      var mid := (lo + hi) / 2;
      if a[mid] < x {
        BisectLeftInSplits(a, x, mid + 1, hi);
      } else {
        BisectLeftInSplits(a, x, lo, mid);
      }
    }
  }

  lemma {:induction false} BisectRightInSplits(a: seq<int>, x: int, lo: nat, hi: nat)
    requires Sorted(a) && lo <= hi <= |a|
    requires forall i :: 0 <= i < lo ==> a[i] <= x
    requires forall i :: hi <= i < |a| ==> a[i] > x
    ensures var r := BisectRightIn(a, x, lo, hi);
      (forall i :: 0 <= i < r ==> a[i] <= x) && (forall i :: r <= i < |a| ==> a[i] > x)
    decreases hi - lo
  {
    if lo < hi {
      var mid := (lo + hi) / 2;
      if x < a[mid] {
        BisectRightInSplits(a, x, lo, mid);
      } else {
        BisectRightInSplits(a, x, mid + 1, hi);
      }
    }
  }

  /** On a sorted sequence, `bisect_left` splits it into the elements below
      `x` and those at or above it. */
  lemma BisectLeftSplits(a: seq<int>, x: int)
    requires Sorted(a)
    ensures BisectLeft(a, x) <= |a|
    ensures forall i :: 0 <= i < BisectLeft(a, x) ==> a[i] < x
    ensures forall i :: BisectLeft(a, x) <= i < |a| ==> a[i] >= x
  {
    BisectLeftInSplits(a, x, 0, |a|);
  }

  /** On a sorted sequence, `bisect_right` splits it into the elements at or
      below `x` and those above it. */
  lemma BisectRightSplits(a: seq<int>, x: int)
    requires Sorted(a)
    ensures BisectRight(a, x) <= |a|
    ensures forall i :: 0 <= i < BisectRight(a, x) ==> a[i] <= x
    ensures forall i :: BisectRight(a, x) <= i < |a| ==> a[i] > x
  {
    BisectRightInSplits(a, x, 0, |a|);
  }

  function Reverse(a: seq<int>): (r: seq<int>)
    ensures |r| == |a|
    ensures forall i :: 0 <= i < |a| ==> r[i] == a[|a| - 1 - i]
  {
    if |a| == 0 then [] else Reverse(a[1..]) + [a[0]]
  }

  /** `SortedSeqIndex.scan`: the suffix from the `bisect_left` position. The
      source passes an undefined name `seq` to `bisect_left`; the model uses
      `self._seq`, as evidently intended. */
  function Scan(a: seq<int>, key: int): seq<int> {
    a[BisectLeft(a, key)..]
  }

  /** `SortedSeqIndex.rscan`: the prefix up to the `bisect_right` position,
      reversed (same correction of `seq` as in `Scan`). */
  function RScan(a: seq<int>, key: int): seq<int> {
    Reverse(a[..BisectRight(a, key)])
  }

  /** `SortedIndex.find`: the first element `scan` yields, if any. */
  function Find(a: seq<int>, key: int): Option<int> {
    var s := Scan(a, key);
    if |s| == 0 then None else Some(s[0])
  }

  /** `scan(k)` yields, in ascending order, exactly the elements `>= k`: every
      element it leaves out is below `k`. */
  lemma ScanAscendingFromKey(a: seq<int>, key: int)
    requires Sorted(a)
    ensures Sorted(Scan(a, key))
    ensures forall i :: 0 <= i < |Scan(a, key)| ==> Scan(a, key)[i] >= key
    ensures forall i :: 0 <= i < |a| - |Scan(a, key)| ==> a[i] < key
    ensures Scan(a, key) == a[|a| - |Scan(a, key)|..]
  {
    BisectLeftSplits(a, key);
  }

  /** `rscan(k)` yields, in descending order, exactly the elements `<= k`:
      every element it leaves out is above `k`. */
  lemma RScanDescendingToKey(a: seq<int>, key: int)
    requires Sorted(a)
    ensures Descending(RScan(a, key))
    ensures forall i :: 0 <= i < |RScan(a, key)| ==> RScan(a, key)[i] <= key
    ensures forall i :: |RScan(a, key)| <= i < |a| ==> a[i] > key
    ensures Reverse(RScan(a, key)) == a[..|RScan(a, key)|]
  {
    BisectRightSplits(a, key);
    var p := a[..BisectRight(a, key)];
    var r := RScan(a, key);
    assert Reverse(r) == p;
  }

  /** On a strictly increasing sequence, scanning from an element yields the
      suffix starting at it, and scanning backwards yields the prefix ending
      at it, reversed. */
  lemma ScanFromElement(a: seq<int>, i: nat)
    requires StrictlyIncreasing(a) && i < |a|
    ensures Scan(a, a[i]) == a[i..]
    ensures RScan(a, a[i]) == Reverse(a[..i + 1])
  {
    assert Sorted(a);
    BisectLeftSplits(a, a[i]);
    BisectRightSplits(a, a[i]);
    var l := BisectLeft(a, a[i]);
    var r := BisectRight(a, a[i]);
    if l < |a| { assert a[l] >= a[i]; }
    if r < |a| { assert a[r] > a[i]; }
    if i + 1 < |a| { assert a[i] < a[i + 1]; }
    assert l == i;
    assert r == i + 1;
  }

  /** `find(k)` is the least element `>= k`, which need not equal `k`, and it
      is `None` exactly when every element is below `k`. */
  lemma FindLeastAtLeast(a: seq<int>, key: int)
    requires Sorted(a)
    ensures Find(a, key).None? <==> forall i :: 0 <= i < |a| ==> a[i] < key
    ensures Find(a, key).Some? ==> Find(a, key).value in a && Find(a, key).value >= key
    ensures Find(a, key).Some? ==>
      forall i :: 0 <= i < |a| && a[i] >= key ==> a[i] >= Find(a, key).value
  {
    BisectLeftSplits(a, key);
  }
}

=== FILE: joins.dfy ===
/** The two-input operators of pydb/join.py (mirrored in pydb/expr.py).
    A joined row is the concatenation `(*row1, *row2)`. */
module Joins {
  import opened Wrappers
  import opened Errors
  import opened Values
  import opened Operators
  import Index

  /** The join column exists in every row. */
  predicate HasColumn(rows: seq<Row>, column: nat) {
    forall i :: 0 <= i < |rows| ==> column < |rows[i]|
  }

  /** A left row the index join probes successfully: its key maps to a
      truthy row id. */
  function IsHit(column: nat, find: Value -> Option<int>): Row -> bool {
    row => column < |row| && Truthy(find(row[column]))
  }

  /** One step of `IndexedJoin.exec` on a left row: no table row for a
      miss, the table's row for a hit, the error `get` raises, or the
      source's `assert row2 is not None` when `get` finds no row. */
  function IndexProbe(row: Row, column: nat, find: Value -> Option<int>,
                 get: int -> Result<Option<Row>, Error>): (r: Result<Option<Row>, Error>)
    requires column < |row|
    ensures !IsHit(column, find)(row) ==> r == Success(None)
    ensures IsHit(column, find)(row) ==>
      (r.Success? <==> get(find(row[column]).value).Success? && get(find(row[column]).value).value.Some?)
    ensures r.Success? && r.value.Some? ==>
      IsHit(column, find)(row) && r.value == get(find(row[column]).value).value
    ensures r.Failure? && get(find(row[column]).value).Failure? ==>
      r.error == get(find(row[column]).value).error
    ensures r.Failure? && get(find(row[column]).value).Success? ==> r.error == AssertionFailed
  {
    var rowid := find(row[column]);
    if !Truthy(rowid) then Success(None)
    else
      var row2 :- get(rowid.value);
      if row2.None? then Failure(AssertionFailed) else Success(row2)
  }

  /** `IndexedJoin.exec`: each left row whose key the index maps to a
      truthy row id, joined with the table's row at that id. The left rows
      are probed in order, and the first probe that fails is the join's
      error. */
  function IndexedJoin(left: seq<Row>, column: nat, find: Value -> Option<int>,
                       get: int -> Result<Option<Row>, Error>): (r: Result<seq<Row>, Error>)
    requires HasColumn(left, column)
    ensures r.Success? <==> forall i :: 0 <= i < |left| ==> IndexProbe(left[i], column, find, get).Success?
    ensures r.Failure? ==>
      exists i :: 0 <= i < |left| && IndexProbe(left[i], column, find, get) == Failure(r.error) &&
        forall j :: 0 <= j < i ==> IndexProbe(left[j], column, find, get).Success?
    decreases |left|
  {
    if |left| == 0 then Success([])
    else
      assert forall i :: 1 <= i < |left| ==> left[i] == left[1..][i - 1];
      var row2 :- IndexProbe(left[0], column, find, get);
      var rest := IndexedJoin(left[1..], column, find, get);
      if rest.Failure? then
        FirstFailureCons(left, row => if column < |row| then IndexProbe(row, column, find, get) else Success(None), rest.error);
        Failure(rest.error)
      else if row2.None? then rest
      else Success([left[0] + row2.value] + rest.value)
  }

  /** A successful index join yields, in left order, one row per hitting
      left row: that row followed by the table's row at its row id. */
  lemma {:induction false} IndexedJoinRows(left: seq<Row>, column: nat, find: Value -> Option<int>,
                                           get: int -> Result<Option<Row>, Error>)
    requires HasColumn(left, column)
    requires IndexedJoin(left, column, find, get).Success?
    ensures |IndexedJoin(left, column, find, get).value| == |Filter(left, IsHit(column, find))|
    ensures forall k :: 0 <= k < |IndexedJoin(left, column, find, get).value| ==>
      var hit := Filter(left, IsHit(column, find))[k];
      column < |hit| && find(hit[column]).Some? &&
      get(find(hit[column]).value).Success? && get(find(hit[column]).value).value.Some? &&
      IndexedJoin(left, column, find, get).value[k] == hit + get(find(hit[column]).value).value.value
    decreases |left|
  {
    if |left| > 0 {
      var p := IsHit(column, find);
      var out := IndexedJoin(left, column, find, get).value;
      var rest := IndexedJoin(left[1..], column, find, get).value;
      var hits := Filter(left[1..], p);
      IndexedJoinRows(left[1..], column, find, get);
      if p(left[0]) {
        var row2 := get(find(left[0][column]).value).value.value;
        assert Filter(left, p) == [left[0]] + hits;
        assert out == [left[0] + row2] + rest;
      } else {
        assert Filter(left, p) == hits;
        assert out == rest;
      }
    }
  }

  /** The rows of `NestedLoopJoin`'s inner loop for one outer row. */
  function Matches(x: Row, ys: seq<Row>, cond: (Row, Row) -> bool): (r: seq<Row>)
    ensures |r| <= |ys|
    decreases |ys|
  {
    if |ys| == 0 then []
    else (if cond(x, ys[0]) then [x + ys[0]] else []) + Matches(x, ys[1..], cond)
  }

  /** `NestedLoopJoin.exec`: every pair the condition accepts, outer row
      major. */
  function NestedLoopJoin(xs: seq<Row>, ys: seq<Row>, cond: (Row, Row) -> bool): (r: seq<Row>)
    ensures |r| <= |xs| * |ys|
    decreases |xs|
  {
    if |xs| == 0 then [] else Matches(xs[0], ys, cond) + NestedLoopJoin(xs[1..], ys, cond)
  }

  lemma {:induction false} MatchesMembers(x: Row, ys: seq<Row>, cond: (Row, Row) -> bool, z: Row)
    ensures z in Matches(x, ys, cond) <==>
      exists j :: 0 <= j < |ys| && cond(x, ys[j]) && z == x + ys[j]
    decreases |ys|
  {
    if |ys| > 0 {
      MatchesMembers(x, ys[1..], cond, z);
      if z in Matches(x, ys[1..], cond) {
        var j :| 0 <= j < |ys[1..]| && cond(x, ys[1..][j]) && z == x + ys[1..][j];
        assert ys[j + 1] == ys[1..][j];
      }
      if exists j :: 0 <= j < |ys| && cond(x, ys[j]) && z == x + ys[j] {
        var j :| 0 <= j < |ys| && cond(x, ys[j]) && z == x + ys[j];
        if j > 0 {
          assert ys[1..][j - 1] == ys[j];
        }
      }
    }
  }

  /** A row comes out of the nested-loop join exactly when it joins some
      outer row with some inner row the condition accepts. */
  lemma {:induction false} NestedLoopJoinMembers(xs: seq<Row>, ys: seq<Row>, cond: (Row, Row) -> bool, z: Row)
    ensures z in NestedLoopJoin(xs, ys, cond) <==>
      exists i, j :: 0 <= i < |xs| && 0 <= j < |ys| && cond(xs[i], ys[j]) && z == xs[i] + ys[j]
    decreases |xs|
  {
    if |xs| > 0 {
      MatchesMembers(xs[0], ys, cond, z);
      NestedLoopJoinMembers(xs[1..], ys, cond, z);
      if z in NestedLoopJoin(xs[1..], ys, cond) {
        var i, j :| 0 <= i < |xs[1..]| && 0 <= j < |ys| && cond(xs[1..][i], ys[j]) && z == xs[1..][i] + ys[j];
        assert xs[i + 1] == xs[1..][i];
      }
      if z in Matches(xs[0], ys, cond) {
        var j :| 0 <= j < |ys| && cond(xs[0], ys[j]) && z == xs[0] + ys[j];
        assert cond(xs[0], ys[j]) && z == xs[0] + ys[j];
      }
      if exists i, j :: 0 <= i < |xs| && 0 <= j < |ys| && cond(xs[i], ys[j]) && z == xs[i] + ys[j] {
        var i, j :| 0 <= i < |xs| && 0 <= j < |ys| && cond(xs[i], ys[j]) && z == xs[i] + ys[j];
        if i > 0 {
          assert xs[1..][i - 1] == xs[i];
        }
      }
    }
  }

  /** `ColumnEquals.test`: the two rows agree on the join columns. The
      source omits `self` from the method's parameters; the model is the
      evident intent. */
  function ColumnEquals(col1: nat, col2: nat): (Row, Row) -> bool {
    (a, b) => col1 < |a| && col2 < |b| && a[col1] == b[col2]
  }

  /** The left rows whose join column holds `k`: one bucket of the hash
      index. */
  function KeyIs(column: nat, k: Value): Row -> bool {
    row => column < |row| && row[column] == k
  }

  /** `index[k]` of a `defaultdict(list)`: a missing key reads as empty. */
  function Bucket(index: map<Value, seq<Row>>, k: Value): seq<Row> {
    if k in index then index[k] else []
  }

  /** The first loop of `HashJoin.exec`, which appends each left row to the
      bucket of its key, in input order. */
  function BuildIndex(xs: seq<Row>, col1: nat): map<Value, seq<Row>>
    requires HasColumn(xs, col1)
    decreases |xs|
  {
    if |xs| == 0 then map[]
    else
      var index := BuildIndex(xs[..|xs| - 1], col1);
      var row := xs[|xs| - 1];
      index[row[col1] := Bucket(index, row[col1]) + [row]]
  }

  /** Every bucket holds exactly the left rows with that key, in input
      order. */
  lemma {:induction false} BuildIndexBuckets(xs: seq<Row>, col1: nat, k: Value)
    requires HasColumn(xs, col1)
    ensures Bucket(BuildIndex(xs, col1), k) == Filter(xs, KeyIs(col1, k))
    decreases |xs|
  {
    if |xs| > 0 {
      BuildIndexBuckets(xs[..|xs| - 1], col1, k);
      BuildIndexLast(xs, col1, k);
      FilterLast(xs, KeyIs(col1, k));
    }
  }

  /** Adding the last row extends only the bucket of its key. */
  lemma BuildIndexLast(xs: seq<Row>, col1: nat, k: Value)
    requires HasColumn(xs, col1) && |xs| > 0
    ensures Bucket(BuildIndex(xs, col1), k)
      == Bucket(BuildIndex(xs[..|xs| - 1], col1), k) + if KeyIs(col1, k)(xs[|xs| - 1]) then [xs[|xs| - 1]] else []
  {
    var m, row := BuildIndex(xs[..|xs| - 1], col1), xs[|xs| - 1];
    assert BuildIndex(xs, col1) == m[row[col1] := Bucket(m, row[col1]) + [row]];
    assert KeyIs(col1, k)(row) <==> row[col1] == k;
  }

  lemma FilterLast<T>(xs: seq<T>, p: T -> bool)
    requires |xs| > 0
    ensures Filter(xs, p) == Filter(xs[..|xs| - 1], p) + if p(xs[|xs| - 1]) then [xs[|xs| - 1]] else []
  {
    var init, x := xs[..|xs| - 1], xs[|xs| - 1];
    FilterSnoc(init, x, p);
    assert init + [x] == xs;
  }

  lemma FilterSnoc<T>(xs: seq<T>, x: T, p: T -> bool)
    ensures Filter(xs + [x], p) == Filter(xs, p) + if p(x) then [x] else []
  {
    FilterConcat(xs, [x], p);
    assert Filter([x], p) == if p(x) then [x] else [];
  }

  /** Each left row of `rows` joined with the right row `row2`. */
  function Glue(rows: seq<Row>, row2: Row): (r: seq<Row>)
    ensures |r| == |rows|
    ensures forall i :: 0 <= i < |rows| ==> r[i] == rows[i] + row2
  {
    seq(|rows|, i requires 0 <= i < |rows| => rows[i] + row2)
  }

  /** The second loop of `HashJoin.exec`. */
  function Probe(index: map<Value, seq<Row>>, ys: seq<Row>, col2: nat): seq<Row>
    requires HasColumn(ys, col2)
    decreases |ys|
  {
    if |ys| == 0 then []
    else Glue(Bucket(index, ys[0][col2]), ys[0]) + Probe(index, ys[1..], col2)
  }

  /** `HashJoin.exec`. */
  function HashJoin(xs: seq<Row>, ys: seq<Row>, col1: nat, col2: nat): seq<Row>
    requires HasColumn(xs, col1) && HasColumn(ys, col2)
  {
    Probe(BuildIndex(xs, col1), ys, col2)
  }

  /** The hash join's order written without a hash table: inner (right)
      row major, and for each right row the matching left rows in input
      order. */
  function RightMajorJoin(xs: seq<Row>, ys: seq<Row>, col1: nat, col2: nat): seq<Row>
    requires HasColumn(ys, col2)
    decreases |ys|
  {
    if |ys| == 0 then []
    else Glue(Filter(xs, KeyIs(col1, ys[0][col2])), ys[0]) + RightMajorJoin(xs, ys[1..], col1, col2)
  }

  lemma {:induction false} ProbeIsRightMajor(xs: seq<Row>, ys: seq<Row>, col1: nat, col2: nat)
    requires HasColumn(xs, col1) && HasColumn(ys, col2)
    ensures Probe(BuildIndex(xs, col1), ys, col2) == RightMajorJoin(xs, ys, col1, col2)
    decreases |ys|
  {
    if |ys| > 0 {
      BuildIndexBuckets(xs, col1, ys[0][col2]);
      ProbeIsRightMajor(xs, ys[1..], col1, col2);
    }
  }

  /** The hash join emits, for each right row in order, the left rows with
      an equal key in their input order. */
  lemma HashJoinIsRightMajor(xs: seq<Row>, ys: seq<Row>, col1: nat, col2: nat)
    requires HasColumn(xs, col1) && HasColumn(ys, col2)
    ensures HashJoin(xs, ys, col1, col2) == RightMajorJoin(xs, ys, col1, col2)
  {
    ProbeIsRightMajor(xs, ys, col1, col2);
  }

  lemma GlueConcat(a: seq<Row>, b: seq<Row>, row2: Row)
    ensures Glue(a + b, row2) == Glue(a, row2) + Glue(b, row2)
  {
  }

  lemma {:induction false} RightMajorEmpty(ys: seq<Row>, col1: nat, col2: nat)
    requires HasColumn(ys, col2)
    ensures RightMajorJoin([], ys, col1, col2) == []
    decreases |ys|
  {
    if |ys| > 0 {
      RightMajorEmpty(ys[1..], col1, col2);
    }
  }

  /** The rows one right row `y` contributes when it joins left row `x`. */
  function Pair(x: Row, y: Row, col1: nat, col2: nat): seq<Row> {
    if ColumnEquals(col1, col2)(x, y) then [x + y] else []
  }

  lemma RightMajorStep(x: Row, xs: seq<Row>, ys: seq<Row>, col1: nat, col2: nat)
    requires HasColumn(ys, col2) && |ys| > 0
    ensures RightMajorJoin([x] + xs, ys, col1, col2)
      == Pair(x, ys[0], col1, col2) + Glue(Filter(xs, KeyIs(col1, ys[0][col2])), ys[0])
         + RightMajorJoin([x] + xs, ys[1..], col1, col2)
    ensures Matches(x, ys, ColumnEquals(col1, col2)) == Pair(x, ys[0], col1, col2) + Matches(x, ys[1..], ColumnEquals(col1, col2))
  {
    var y := ys[0];
    var p := KeyIs(col1, y[col2]);
    GlueFilterCons(x, xs, p, y);
    assert p(x) == ColumnEquals(col1, col2)(x, y);
  }

  /** Taking the first left row out of the right-major join leaves its
      matches, as a multiset. */
  lemma {:induction false} RightMajorCons(x: Row, xs: seq<Row>, ys: seq<Row>, col1: nat, col2: nat)
    requires HasColumn(ys, col2)
    ensures multiset(RightMajorJoin([x] + xs, ys, col1, col2))
      == multiset(Matches(x, ys, ColumnEquals(col1, col2))) + multiset(RightMajorJoin(xs, ys, col1, col2))
    decreases |ys|
  {
    if |ys| > 0 {
      var hit := Pair(x, ys[0], col1, col2);
      var tail := Glue(Filter(xs, KeyIs(col1, ys[0][col2])), ys[0]);
      var rest := RightMajorJoin([x] + xs, ys[1..], col1, col2);
      var matches := Matches(x, ys[1..], ColumnEquals(col1, col2));
      var others := RightMajorJoin(xs, ys[1..], col1, col2);
      RightMajorStep(x, xs, ys, col1, col2);
      assert RightMajorJoin(xs, ys, col1, col2) == tail + others;
      RightMajorCons(x, xs, ys[1..], col1, col2);
      MultisetShuffle(hit, tail, rest, matches, others);
    }
  }

  lemma MultisetShuffle<T>(hit: seq<T>, tail: seq<T>, rest: seq<T>, matches: seq<T>, others: seq<T>)
    requires multiset(rest) == multiset(matches) + multiset(others)
    ensures multiset(hit + tail + rest) == multiset(hit + matches) + multiset(tail + others)
  {
  }

  lemma GlueFilterCons(x: Row, xs: seq<Row>, p: Row -> bool, y: Row)
    ensures Glue(Filter([x] + xs, p), y) == (if p(x) then [x + y] else []) + Glue(Filter(xs, p), y)
  {
    var head := if p(x) then [x] else [];
    FilterCons(x, xs, p);
    GlueConcat(head, Filter(xs, p), y);
  }

  lemma {:induction false} RightMajorIsNestedLoop(xs: seq<Row>, ys: seq<Row>, col1: nat, col2: nat)
    requires HasColumn(ys, col2)
    ensures multiset(RightMajorJoin(xs, ys, col1, col2))
      == multiset(NestedLoopJoin(xs, ys, ColumnEquals(col1, col2)))
    decreases |xs|
  {
    if |xs| == 0 {
      RightMajorEmpty(ys, col1, col2);
    } else {
      assert xs == [xs[0]] + xs[1..];
      RightMajorCons(xs[0], xs[1..], ys, col1, col2);
      RightMajorIsNestedLoop(xs[1..], ys, col1, col2);
    }
  }

  /** The hash join and the nested-loop join on column equality produce
      the same rows, each as often, only in a different order. */
  lemma HashJoinSameRowsAsNestedLoop(xs: seq<Row>, ys: seq<Row>, col1: nat, col2: nat)
    requires HasColumn(xs, col1) && HasColumn(ys, col2)
    ensures multiset(HashJoin(xs, ys, col1, col2))
      == multiset(NestedLoopJoin(xs, ys, ColumnEquals(col1, col2)))
    ensures |HashJoin(xs, ys, col1, col2)| == |NestedLoopJoin(xs, ys, ColumnEquals(col1, col2))|
  {
    HashJoinIsRightMajor(xs, ys, col1, col2);
    RightMajorIsNestedLoop(xs, ys, col1, col2);
    assert |multiset(HashJoin(xs, ys, col1, col2))| == |HashJoin(xs, ys, col1, col2)|;
  }

  /** `MergeJoin.exec`: walk two key-ordered inputs in step, emitting the
      pair when the keys agree and advancing both, otherwise advancing the
      side with the smaller key. The source's constructor never assigns
      `self.exp1`; the model uses the first input as evidently intended. */
  function MergeJoin<A, B>(xs: seq<A>, key1: A -> int, ys: seq<B>, key2: B -> int): (r: seq<(A, B)>)
    ensures |r| <= |xs| && |r| <= |ys|
    ensures forall i :: 0 <= i < |r| ==> key1(r[i].0) == key2(r[i].1)
    decreases |xs| + |ys|
  {
    if |xs| == 0 || |ys| == 0 then []
    else if key1(xs[0]) == key2(ys[0]) then [(xs[0], ys[0])] + MergeJoin(xs[1..], key1, ys[1..], key2)
    else if key1(xs[0]) < key2(ys[0]) then MergeJoin(xs[1..], key1, ys, key2)
    else MergeJoin(xs, key1, ys[1..], key2)
  }

  /** The merge join as the source's cursor loop. */
  method MergeJoinLoop<A, B>(xs: seq<A>, key1: A -> int, ys: seq<B>, key2: B -> int)
    returns (out: seq<(A, B)>)
    ensures out == MergeJoin(xs, key1, ys, key2)
  {
    out := [];
    var i, j := 0, 0;
    while i < |xs| && j < |ys|
      invariant 0 <= i <= |xs| && 0 <= j <= |ys|
      invariant out + MergeJoin(xs[i..], key1, ys[j..], key2) == MergeJoin(xs, key1, ys, key2)
      decreases |xs| - i + |ys| - j
    {
      assert xs[i..][1..] == xs[i + 1..] && ys[j..][1..] == ys[j + 1..];
      var k1, k2 := key1(xs[i]), key2(ys[j]);
      if k1 == k2 {
        out := out + [(xs[i], ys[j])];
        i, j := i + 1, j + 1;
      } else if k1 < k2 {
        i := i + 1;
      } else {
        j := j + 1;
      }
    }
  }

  function Firsts<A, B>(r: seq<(A, B)>): (s: seq<A>)
    ensures |s| == |r| && forall i :: 0 <= i < |r| ==> s[i] == r[i].0
  {
    seq(|r|, i requires 0 <= i < |r| => r[i].0)
  }

  function Seconds<A, B>(r: seq<(A, B)>): (s: seq<B>)
    ensures |s| == |r| && forall i :: 0 <= i < |r| ==> s[i] == r[i].1
  {
    seq(|r|, i requires 0 <= i < |r| => r[i].1)
  }

  lemma FirstsCons<A, B>(p: (A, B), r: seq<(A, B)>)
    ensures Firsts([p] + r) == [p.0] + Firsts(r)
  {
  }

  lemma SecondsCons<A, B>(p: (A, B), r: seq<(A, B)>)
    ensures Seconds([p] + r) == [p.1] + Seconds(r)
  {
  }

  /** The left elements the merge join emits keep their input order. */
  lemma {:induction false} MergeJoinFirsts<A, B>(xs: seq<A>, key1: A -> int, ys: seq<B>, key2: B -> int)
    ensures IsSubsequence(Firsts(MergeJoin(xs, key1, ys, key2)), xs)
    decreases |xs| + |ys|
  {
    if |xs| > 0 && |ys| > 0 {
      if key1(xs[0]) == key2(ys[0]) {
        var rest := MergeJoin(xs[1..], key1, ys[1..], key2);
        MergeJoinFirsts(xs[1..], key1, ys[1..], key2);
        FirstsCons((xs[0], ys[0]), rest);
        assert ([xs[0]] + Firsts(rest))[1..] == Firsts(rest);
      } else if key1(xs[0]) < key2(ys[0]) {
        MergeJoinFirsts(xs[1..], key1, ys, key2);
      } else {
        MergeJoinFirsts(xs, key1, ys[1..], key2);
      }
    } else {
      EmptyIsSubsequence(xs);
    }
  }

  /** The right elements the merge join emits keep their input order. */
  lemma {:induction false} MergeJoinSeconds<A, B>(xs: seq<A>, key1: A -> int, ys: seq<B>, key2: B -> int)
    ensures IsSubsequence(Seconds(MergeJoin(xs, key1, ys, key2)), ys)
    decreases |xs| + |ys|
  {
    if |xs| > 0 && |ys| > 0 {
      if key1(xs[0]) == key2(ys[0]) {
        var rest := MergeJoin(xs[1..], key1, ys[1..], key2);
        MergeJoinSeconds(xs[1..], key1, ys[1..], key2);
        SecondsCons((xs[0], ys[0]), rest);
        assert ([ys[0]] + Seconds(rest))[1..] == Seconds(rest);
      } else if key1(xs[0]) < key2(ys[0]) {
        MergeJoinSeconds(xs[1..], key1, ys, key2);
      } else {
        MergeJoinSeconds(xs, key1, ys[1..], key2);
      }
    } else {
      EmptyIsSubsequence(ys);
    }
  }

  /** Each input element joins at most once, and the output keeps the
      order of both inputs. */
  lemma MergeJoinSubsequences<A, B>(xs: seq<A>, key1: A -> int, ys: seq<B>, key2: B -> int)
    ensures IsSubsequence(Firsts(MergeJoin(xs, key1, ys, key2)), xs)
    ensures IsSubsequence(Seconds(MergeJoin(xs, key1, ys, key2)), ys)
  {
    MergeJoinFirsts(xs, key1, ys, key2);
    MergeJoinSeconds(xs, key1, ys, key2);
  }

  /** The keys of a sequence, in order. */
  function Keys<T>(xs: seq<T>, key: T -> int): (ks: seq<int>)
    ensures |ks| == |xs| && forall i :: 0 <= i < |xs| ==> ks[i] == key(xs[i])
  {
    seq(|xs|, i requires 0 <= i < |xs| => key(xs[i]))
  }

  /** On inputs with strictly increasing keys the merge join emits one
      pair per key common to both inputs, in ascending key order. */
  lemma {:induction false} MergeJoinCommonKeys<A, B>(xs: seq<A>, key1: A -> int, ys: seq<B>, key2: B -> int)
    requires Index.StrictlyIncreasing(Keys(xs, key1))
    requires Index.StrictlyIncreasing(Keys(ys, key2))
    ensures Index.StrictlyIncreasing(Keys(Firsts(MergeJoin(xs, key1, ys, key2)), key1))
    ensures forall v :: v in Keys(Firsts(MergeJoin(xs, key1, ys, key2)), key1) <==>
      v in Keys(xs, key1) && v in Keys(ys, key2)
    decreases |xs| + |ys|
  {
    if |xs| > 0 && |ys| > 0 {
      var kx, ky := Keys(xs, key1), Keys(ys, key2);
      assert kx[1..] == Keys(xs[1..], key1) && ky[1..] == Keys(ys[1..], key2);
      if key1(xs[0]) == key2(ys[0]) {
        MergeJoinCommonKeys(xs[1..], key1, ys[1..], key2);
        var rest := Keys(Firsts(MergeJoin(xs[1..], key1, ys[1..], key2)), key1);
        assert Keys(Firsts(MergeJoin(xs, key1, ys, key2)), key1) == [kx[0]] + rest;
        CommonKeysCons(kx, ky, rest);
      } else if key1(xs[0]) < key2(ys[0]) {
        MergeJoinCommonKeys(xs[1..], key1, ys, key2);
        CommonKeysSkip(kx, ky);
      } else {
        MergeJoinCommonKeys(xs, key1, ys[1..], key2);
        CommonKeysSkip(ky, kx);
      }
    }
  }

  /** A key both inputs start with heads the common keys. */
  lemma CommonKeysCons(kx: seq<int>, ky: seq<int>, rest: seq<int>)
    requires Index.StrictlyIncreasing(kx) && Index.StrictlyIncreasing(ky)
    requires |kx| > 0 && |ky| > 0 && kx[0] == ky[0]
    requires Index.StrictlyIncreasing(rest)
    requires forall v :: v in rest <==> v in kx[1..] && v in ky[1..]
    ensures Index.StrictlyIncreasing([kx[0]] + rest)
    ensures forall v :: v in [kx[0]] + rest <==> v in kx && v in ky
  {
    var out := [kx[0]] + rest;
    forall i, j | 0 <= i < j < |out| ensures out[i] < out[j] {
      assert out[j] == rest[j - 1] && out[j] in kx[1..];
      if i > 0 {
        assert out[i] == rest[i - 1];
      }
    }
    forall v | v in kx && v in ky ensures v in out {
      if v != kx[0] {
        assert v in kx[1..] && v in ky[1..];
      }
    }
  }

  /** A key smaller than every key of the other input is in no common
      key. */
  lemma CommonKeysSkip(kx: seq<int>, ky: seq<int>)
    requires Index.StrictlyIncreasing(ky)
    requires |kx| > 0 && |ky| > 0 && kx[0] < ky[0]
    ensures forall v :: v in kx && v in ky <==> v in kx[1..] && v in ky
  {
    forall v | v in kx && v in ky ensures v in kx[1..] {
      var j :| 0 <= j < |ky| && ky[j] == v;
      assert ky[0] <= ky[j];
    }
  }
}

=== FILE: mem.dfy ===
/** The in-memory table and database of pydb/mem.py: a schema with an
    append-only list of rows, and a name to table registry. */
module Mem {
  import opened Wrappers
  import opened Errors
  import opened Values
  import opened Tables
  import Query
  import Planner
  import Disk

  datatype MemTable = MemTable(schema: Schema, rows: seq<Row>)

  /** Every stored row has the schema's arity. */
  predicate Fits(t: MemTable) {
    Planner.RowsFit(t.rows, t.schema)
  }

  /** `check_col_types`: only the arity is asserted. */
  function CheckColTypes(values: Row, s: Schema): (r: Option<Error>)
    ensures r.None? <==> |values| == |s.columns|
    ensures r.Some? ==> r.value == AssertionFailed
  {
    if |values| != |s.columns| then Some(AssertionFailed) else None
  }

  /** `MemTable.insert`: rejects a column/value count mismatch, then
      columns other than the schema's names in order, then asserts the
      arity; otherwise appends the values as the last row and returns
      them. Value types and key uniqueness are not checked. */
  function Insert(t: MemTable, q: Query.Query): (r: Result<(MemTable, Row), Error>)
    requires q.Insert?
    ensures |q.columns| != |q.values| ==> r == Failure(ColumnsDontMatchValues)
    ensures (|q.columns| == |q.values| && q.columns != ColumnNames(t.schema)) ==>
      r == Failure(ColumnsDontMatchSchema)
    ensures r.Success? <==> |q.columns| == |q.values| && q.columns == ColumnNames(t.schema)
    ensures r.Success? ==> r.value.0.schema == t.schema && r.value.0.rows == t.rows + [q.values]
    ensures r.Success? ==> r.value.1 == q.values
    ensures r.Success? && Fits(t) ==> Fits(r.value.0)
  {
    if |q.columns| != |q.values| then Failure(ColumnsDontMatchValues)
    else if q.columns != ColumnNames(t.schema) then Failure(ColumnsDontMatchSchema)
    else match CheckColTypes(q.values, t.schema)
      case Some(e) => Failure(e)
      case None => Success((MemTable(t.schema, t.rows + [q.values]), q.values))
  }

  /** The arity assertion of `check_col_types` never fires: the two checks
      before it already force the arity. */
  lemma InsertNeverTripsAssertion(t: MemTable, q: Query.Query)
    requires q.Insert?
    ensures Insert(t, q).Failure? ==> Insert(t, q).error != AssertionFailed
  {
  }

  datatype MemDatabase = MemDatabase(tables: map<string, MemTable>)

  /** Every table's rows fit its schema. */
  predicate Consistent(db: MemDatabase) {
    forall n :: n in db.tables ==> Fits(db.tables[n])
  }

  /** `MemDatabase._create_table` as written: it rejects a name already
      registered and otherwise adds an empty table, without validating the
      schema. */
  function CreateTableAsWritten(db: MemDatabase, q: Query.Query): (r: Result<MemDatabase, Error>)
    requires q.CreateTable?
    ensures r.Success? <==> q.schema.name !in db.tables
    ensures r.Failure? ==> r.error == TableExists(q.schema.name)
    ensures r.Success? ==> r.value.tables == db.tables[q.schema.name := MemTable(q.schema, [])]
  {
    if q.schema.name in db.tables then Failure(TableExists(q.schema.name))
    else Success(MemDatabase(db.tables[q.schema.name := MemTable(q.schema, [])]))
  }

  /** As written, an unnamed table without columns is registered, although
      the shared database tests expect SchemaError for it. */
  lemma CreateTableAsWrittenAcceptsInvalidSchema()
    ensures !ValidSchema(Schema("", []))
    ensures CreateTableAsWritten(MemDatabase(map[]), Query.CreateTable(Schema("", []))).Success?
    ensures CreateTable(MemDatabase(map[]), Query.CreateTable(Schema("", []))) == Failure(SchemaError(EmptyTableName))
  {
  }

  /** `MemDatabase._create_table` with the schema validation the shared
      database tests expect, run first as in `DiskDatabase._create_table`. */
  function CreateTable(db: MemDatabase, q: Query.Query): (r: Result<MemDatabase, Error>)
    requires q.CreateTable?
    ensures CheckSchema(q.schema).Some? ==> r == Failure(CheckSchema(q.schema).value)
    ensures r.Success? <==> ValidSchema(q.schema) && q.schema.name !in db.tables
    ensures ValidSchema(q.schema) ==> r == CreateTableAsWritten(db, q)
    ensures r.Success? && Consistent(db) ==> Consistent(r.value)
  {
    match CheckSchema(q.schema)
    case Some(e) => Failure(e)
    case None => CreateTableAsWritten(db, q)
  }

  /** `MemDatabase._insert`: an unknown table fails first; otherwise the
      table's own insert decides. The cursor is the inserted values
      themselves. Only the named table changes. */
  function InsertQuery(db: MemDatabase, q: Query.Query): (r: Result<(MemDatabase, Row), Error>)
    requires q.Insert?
    ensures q.table !in db.tables ==> r == Failure(UnknownTable(q.table))
    ensures q.table in db.tables ==> (r.Success? <==> Insert(db.tables[q.table], q).Success?)
    ensures q.table in db.tables && Insert(db.tables[q.table], q).Failure? ==>
      r == Failure(Insert(db.tables[q.table], q).error)
    ensures r.Success? ==> r.value.0.tables.Keys == db.tables.Keys
    ensures r.Success? ==> forall n :: n in db.tables && n != q.table ==> r.value.0.tables[n] == db.tables[n]
    ensures r.Success? ==> r.value.0.tables[q.table].rows == db.tables[q.table].rows + [q.values]
    ensures r.Success? ==> r.value.1 == q.values
    ensures r.Success? && Consistent(db) ==> Consistent(r.value.0)
  {
    if q.table !in db.tables then Failure(UnknownTable(q.table))
    else
      var (t', row) :- Insert(db.tables[q.table], q);
      Success((MemDatabase(db.tables[q.table := t']), row))
  }

  /** The schemas the planner sees. */
  function Schemas(db: MemDatabase): (m: map<string, Schema>)
    ensures m.Keys == db.tables.Keys
    ensures forall n :: n in db.tables ==> m[n] == db.tables[n].schema
  {
    map n | n in db.tables :: db.tables[n].schema
  }

  /** `MemTable.rows()` for each registered table. */
  function RowsOf(db: MemDatabase): string -> Result<seq<Row>, Error> {
    n => if n in db.tables then Success(db.tables[n].rows) else Failure(UnknownTable(n))
  }

  /** `MemDatabase._select`: plan the query, then execute the plan. */
  function Select(db: MemDatabase, q: Query.Query): Result<seq<Row>, Error>
    requires q.Select?
  {
    var plan :- Planner.PlanQuery(Schemas(db), q);
    Planner.Exec(plan, RowsOf(db))
  }

  /** Selecting every column, without WHERE, returns the table's rows in
      insertion order. */
  lemma SelectAllInInsertionOrder(db: MemDatabase, name: string)
    requires name in db.tables
    requires Distinct(ColumnNames(db.tables[name].schema))
    ensures Select(db, Query.Select(ColumnNames(db.tables[name].schema), Query.From(name), None))
      == Success(db.tables[name].rows)
  {
    Planner.SelectAllReturnsRows(Schemas(db), name, RowsOf(db), db.tables[name].rows);
  }

  /** An insert followed by SELECT * returns the earlier rows, then the
      inserted values. */
  lemma InsertThenSelectAll(db: MemDatabase, q: Query.Query)
    requires q.Insert?
    requires InsertQuery(db, q).Success?
    requires Distinct(ColumnNames(db.tables[q.table].schema))
    ensures Select(InsertQuery(db, q).value.0, Query.Select(q.columns, Query.From(q.table), None))
      == Success(db.tables[q.table].rows + [q.values])
  {
    var db' := InsertQuery(db, q).value.0;
    assert db'.tables[q.table].schema == db.tables[q.table].schema;
    SelectAllInInsertionOrder(db', q.table);
  }

  /** The two databases check an INSERT in a different order: for an
      unknown table with mismatched counts the disk database reports the
      count mismatch, the memory database the table. */
  lemma InsertErrorOrderDiffers(c: Disk.Codec, name: string)
    ensures Disk.InsertQuery(c, Disk.DiskDatabase(map[]), Query.Insert(name, ["a"], []))
      == Failure(ColumnsDontMatchValues)
    ensures InsertQuery(MemDatabase(map[]), Query.Insert(name, ["a"], []))
      == Failure(UnknownTable(name))
  {
  }
}

=== FILE: operators.dfy ===
/** The single-input execution operators of pydb/expr.py, pydb/scan.py and
    pydb/project.py. A lazy Python generator becomes the finite sequence it
    would yield. */
module Operators {
  import opened Wrappers
  import opened Errors
  import opened Values
  import Tables
  import Index

  /** `a` is `b` with some elements left out, the rest in order. */
  predicate IsSubsequence<T(==)>(a: seq<T>, b: seq<T>)
    decreases |b|
  {
    if |b| == 0 then |a| == 0
    else (|a| > 0 && a[0] == b[0] && IsSubsequence(a[1..], b[1..])) || IsSubsequence(a, b[1..])
  }

  /** The empty sequence is a subsequence of every sequence. */
  lemma {:induction false} EmptyIsSubsequence<T>(b: seq<T>)
    ensures IsSubsequence([], b)
    decreases |b|
  {
    if |b| > 0 {
      EmptyIsSubsequence(b[1..]);
    }
  }

  /** The filtering generator of `FilteredScan.exec`: the elements that
      satisfy `p`, in input order. */
  function Filter<T>(xs: seq<T>, p: T -> bool): (r: seq<T>)
    ensures |r| <= |xs|
    ensures forall i :: 0 <= i < |r| ==> p(r[i])
  {
    if |xs| == 0 then [] else (if p(xs[0]) then [xs[0]] else []) + Filter(xs[1..], p)
  }

  lemma FilterCons<T>(x: T, xs: seq<T>, p: T -> bool)
    ensures Filter([x] + xs, p) == (if p(x) then [x] else []) + Filter(xs, p)
  {
    assert ([x] + xs)[0] == x && ([x] + xs)[1..] == xs;
  }

  /** An element is kept exactly when it occurs in the input and satisfies
      the predicate, and it is kept as often as it occurs. */
  lemma {:induction false} FilterMultiset<T>(xs: seq<T>, p: T -> bool, x: T)
    ensures multiset(Filter(xs, p))[x] == if p(x) then multiset(xs)[x] else 0
    ensures x in Filter(xs, p) <==> x in xs && p(x)
    decreases |xs|
  {
    if |xs| > 0 {
      assert xs == [xs[0]] + xs[1..];
      FilterMultiset(xs[1..], p, x);
    }
  }

  lemma {:induction false} FilterConcat<T>(xs: seq<T>, ys: seq<T>, p: T -> bool)
    ensures Filter(xs + ys, p) == Filter(xs, p) + Filter(ys, p)
    decreases |xs|
  {
    if |xs| > 0 {
      assert (xs + ys)[1..] == xs[1..] + ys;
      FilterConcat(xs[1..], ys, p);
      assert Filter(xs + ys, p)
        == (if p(xs[0]) then [xs[0]] else []) + (Filter(xs[1..], p) + Filter(ys, p));
    } else {
      assert xs + ys == ys;
    }
  }

  /** Predicates that agree on every element filter alike. */
  lemma {:induction false} FilterCongruent<T>(xs: seq<T>, p: T -> bool, q: T -> bool)
    requires forall i :: 0 <= i < |xs| ==> p(xs[i]) == q(xs[i])
    ensures Filter(xs, p) == Filter(xs, q)
    decreases |xs|
  {
    if |xs| > 0 {
      FilterCongruent(xs[1..], p, q);
    }
  }

  /** The filter keeps an order-preserving subsequence of its input. */
  lemma {:induction false} FilterIsSubsequence<T>(xs: seq<T>, p: T -> bool)
    ensures IsSubsequence(Filter(xs, p), xs)
    decreases |xs|
  {
    if |xs| > 0 {
      FilterIsSubsequence(xs[1..], p);
      var r := Filter(xs, p);
      if p(xs[0]) {
        assert r[0] == xs[0] && r[1..] == Filter(xs[1..], p);
      } else {
        assert r == Filter(xs[1..], p);
      }
    }
  }

  /** Filtering twice by the same predicate is filtering once. */
  lemma {:induction false} FilterIdempotent<T>(xs: seq<T>, p: T -> bool)
    ensures Filter(Filter(xs, p), p) == Filter(xs, p)
    decreases |xs|
  {
    if |xs| > 0 {
      FilterIdempotent(xs[1..], p);
      var r := Filter(xs, p);
      if p(xs[0]) {
        assert r[0] == xs[0] && r[1..] == Filter(xs[1..], p);
      } else {
        assert r == Filter(xs[1..], p);
      }
    }
  }

  /** An always-true filter passes every element through. */
  lemma {:induction false} FilterAllPass<T>(xs: seq<T>, p: T -> bool)
    requires forall i :: 0 <= i < |xs| ==> p(xs[i])
    ensures Filter(xs, p) == xs
    decreases |xs|
  {
    if |xs| > 0 {
      FilterAllPass(xs[1..], p);
    }
  }

  /** `if rowid:` in Python: a missing row id and row id 0 both count as a
      miss. */
  predicate Truthy(rowid: Option<int>) {
    rowid.Some? && rowid.value != 0
  }

  /** `IndexedLookup.exec`: the one-tuple `(table.get(rowid),)` for a truthy
      row id from the index, otherwise nothing. The index's `find` and the
      table's `get` are given as functions; `get` may raise, as
      `DiskTable.get` does on a row id past its index, a removed record or
      an undecodable payload, and its error is then the lookup's. */
  function IndexedLookup(find: Value -> Option<int>, key: Value, get: int -> Result<Option<Row>, Error>)
    : (r: Result<seq<Option<Row>>, Error>)
    ensures r.Success? ==> |r.value| <= 1
    ensures !Truthy(find(key)) ==> r == Success([])
    ensures Truthy(find(key)) ==> (r.Success? <==> get(find(key).value).Success?)
    ensures r.Success? && |r.value| == 1 ==> Truthy(find(key)) && r.value[0] == get(find(key).value).value
    ensures r.Failure? ==> Truthy(find(key)) && r.error == get(find(key).value).error
  {
    var rowid := find(key);
    if !Truthy(rowid) then Success([])
    else
      var row :- get(rowid.value);
      Success([row])
  }

  /** Over a hash index, the lookup yields the table's row at the id the key
      maps to exactly when the key is present with a row id other than 0,
      and nothing otherwise. */
  lemma IndexedLookupOnHashIndex(m: map<Value, int>, key: Value, get: int -> Result<Option<Row>, Error>)
    ensures key in m && m[key] != 0 ==>
      IndexedLookup(k => Index.HashFind(m, k), key, get) ==
        (if get(m[key]).Success? then Success([get(m[key]).value]) else Failure(get(m[key]).error))
    ensures !(key in m && m[key] != 0) ==>
      IndexedLookup(k => Index.HashFind(m, k), key, get) == Success([])
  {
  }

  /** Row id 0 is never looked up: an index that maps the key to row 0
      yields no row, although the table holds one there. */
  lemma IndexedLookupSkipsRowZero(row: Row)
    ensures IndexedLookup(k => Some(0), Int(0), rid => Success(Some(row))) == Success([])
  {
  }

  /** When `f` succeeds on the first element, the first failure of `f` on
      the rest is the first failure on the whole sequence. */
  lemma FirstFailureCons<X, Y>(xs: seq<X>, f: X -> Result<Y, Error>, e: Error)
    requires |xs| > 0 && f(xs[0]).Success?
    requires
      exists i :: 0 <= i < |xs| - 1 && f(xs[1..][i]) == Failure(e) &&
        forall j :: 0 <= j < i ==> f(xs[1..][j]).Success?
    ensures
      exists i :: 0 <= i < |xs| && f(xs[i]) == Failure(e) &&
        forall j :: 0 <= j < i ==> f(xs[j]).Success?
  {
    var i :| 0 <= i < |xs| - 1 && f(xs[1..][i]) == Failure(e) &&
      forall j :: 0 <= j < i ==> f(xs[1..][j]).Success?;
    assert xs[i + 1] == xs[1..][i];
    assert forall j :: 1 <= j < i + 1 ==> xs[j] == xs[1..][j - 1];
  }

  /** Every position of `columns` indexes into every row. */
  predicate ColumnsInRange(rows: seq<Row>, columns: seq<nat>) {
    forall i, j :: 0 <= i < |rows| && 0 <= j < |columns| ==> columns[j] < |rows[i]|
  }

  /** `ColumnProjection._project`: the values at the given positions, in
      the given order; positions may repeat. */
  function Project(row: Row, columns: seq<nat>): (r: Row)
    requires forall j :: 0 <= j < |columns| ==> columns[j] < |row|
    ensures |r| == |columns|
    ensures forall j :: 0 <= j < |columns| ==> r[j] == row[columns[j]]
  {
    seq(|columns|, j requires 0 <= j < |columns| => row[columns[j]])
  }

  /** `ColumnProjection.exec`: one projected row per input row, in order. */
  function ColumnProjection(rows: seq<Row>, columns: seq<nat>): (r: seq<Row>)
    requires ColumnsInRange(rows, columns)
    ensures |r| == |rows|
    ensures forall i :: 0 <= i < |rows| ==> |r[i]| == |columns|
    ensures forall i, j :: 0 <= i < |rows| && 0 <= j < |columns| ==> r[i][j] == rows[i][columns[j]]
  {
    seq(|rows|, i requires 0 <= i < |rows| => Project(rows[i], columns))
  }

  /** Projection takes positions one at a time, from the front. */
  lemma ProjectCons(row: Row, columns: seq<nat>)
    requires |columns| > 0 && forall j :: 0 <= j < |columns| ==> columns[j] < |row|
    ensures Project(row, columns) == [row[columns[0]]] + Project(row, columns[1..])
  {
    assert forall j :: 1 <= j < |columns| ==> columns[j] == columns[1..][j - 1];
  }

  /** Rows are in range exactly when the first one is and the rest are. */
  lemma ColumnsInRangeCons(rows: seq<Row>, columns: seq<nat>)
    requires |rows| > 0
    ensures ColumnsInRange(rows, columns) <==>
      (forall j :: 0 <= j < |columns| ==> columns[j] < |rows[0]|) && ColumnsInRange(rows[1..], columns)
  {
    assert forall i :: 1 <= i < |rows| ==> rows[i] == rows[1..][i - 1];
  }

  /** Projection takes rows one at a time, from the front. */
  lemma ColumnProjectionCons(rows: seq<Row>, columns: seq<nat>)
    requires |rows| > 0 && ColumnsInRange(rows, columns)
    ensures ColumnsInRange(rows[1..], columns)
    ensures ColumnProjection(rows, columns) == [Project(rows[0], columns)] + ColumnProjection(rows[1..], columns)
  {
    ColumnsInRangeCons(rows, columns);
    var a := ColumnProjection(rows, columns);
    var b := [Project(rows[0], columns)] + ColumnProjection(rows[1..], columns);
    assert |a| == |b|;
    forall i | 0 <= i < |a|
      ensures a[i] == b[i]
    {
      if i > 0 {
        assert rows[i] == rows[1..][i - 1];
      }
    }
  }

  /** Projecting rows of arity `n` onto `0..n-1` changes nothing. */
  lemma ProjectAllColumns(rows: seq<Row>, n: nat)
    requires forall i :: 0 <= i < |rows| ==> |rows[i]| == n
    ensures ColumnsInRange(rows, Tables.Range(n))
    ensures ColumnProjection(rows, Tables.Range(n)) == rows
  {
    var r := ColumnProjection(rows, Tables.Range(n));
    forall i | 0 <= i < |rows| ensures r[i] == rows[i] {
      assert |r[i]| == |rows[i]|;
    }
  }

  /** `DynamicProjection.exec`: `fn` applied to each element, in order. */
  function DynamicProjection<A, B>(xs: seq<A>, fn: A -> B): (r: seq<B>)
    ensures |r| == |xs|
    ensures forall i :: 0 <= i < |xs| ==> r[i] == fn(xs[i])
  {
    seq(|xs|, i requires 0 <= i < |xs| => fn(xs[i]))
  }

  /** `RangeIndexedScan.exec`: the element at each row id the range index
      yields, in that order. The range index's `scan(start, end)` is an
      abstract method in the source, so its output `rids` is a parameter. */
  function RangeIndexedScan<T>(xs: seq<T>, rids: seq<int>): (r: seq<T>)
    requires forall k :: 0 <= k < |rids| ==> 0 <= rids[k] < |xs|
    ensures |r| == |rids|
    ensures forall k :: 0 <= k < |rids| ==> r[k] == xs[rids[k]]
  {
    seq(|rids|, k requires 0 <= k < |rids| => xs[rids[k]])
  }

  /** `SortedIndexScan.exec`: the element at each row id `index.scan(key)`
      yields. The source passes an unbound name `key` to `scan`; the model
      uses `self.key`, as evidently intended. */
  function SortedIndexScan<T>(xs: seq<T>, index: seq<int>, key: int): (r: seq<T>)
    requires forall k :: 0 <= k < |Index.Scan(index, key)| ==> 0 <= Index.Scan(index, key)[k] < |xs|
    ensures |r| == |Index.Scan(index, key)|
    ensures forall k :: 0 <= k < |r| ==> r[k] == xs[Index.Scan(index, key)[k]]
  {
    RangeIndexedScan(xs, Index.Scan(index, key))
  }

  /** On a sorted index the scan visits exactly the row ids at or above the
      key, ascending. */
  lemma SortedIndexScanVisitsFromKey<T>(xs: seq<T>, index: seq<int>, key: int)
    requires Index.Sorted(index)
    requires forall k :: 0 <= k < |Index.Scan(index, key)| ==> 0 <= Index.Scan(index, key)[k] < |xs|
    ensures forall k :: 0 <= k < |index| ==>
      (index[k] >= key <==> k >= |index| - |SortedIndexScan(xs, index, key)|)
    ensures forall k :: 0 <= k < |SortedIndexScan(xs, index, key)| ==>
      SortedIndexScan(xs, index, key)[k] == xs[index[|index| - |SortedIndexScan(xs, index, key)| + k]]
  {
    Index.ScanAscendingFromKey(index, key);
  }
}

=== FILE: plan.dfy ===
/** The query planner of pydb/plan.py and the execution of the plans it
    builds. A plan names its table; executing it reads the table's rows
    through a function standing for `ITable.rows()`. */
module Planner {
  import opened Wrappers
  import opened Errors
  import opened Values
  import opened Tables
  import opened Query
  import Operators

  /** The comparison operators of `SimplePlanner.BINOPS`. */
  datatype CmpOp = Eq | Lt | Gt | Le | Ge

  /** The key each operator has in `BINOPS`. */
  function OpText(op: CmpOp): string {
    match op
    case Eq => "="
    case Lt => "<"
    case Gt => ">"
    case Le => "<="
    case Ge => ">="
  }

  /** `SimplePlanner.BINOPS[op]`, a KeyError for any other text. */
  function BinOp(op: string): (r: Result<CmpOp, Error>)
    ensures r.Success? ==> OpText(r.value) == op
    ensures r.Failure? <==> forall c: CmpOp :: OpText(c) != op
    ensures r.Failure? ==> r.error == UnknownOperator(op)
  {
    if op == "=" then Success(Eq)
    else if op == "<" then Success(Lt)
    else if op == ">" then Success(Gt)
    else if op == "<=" then Success(Le)
    else if op == ">=" then Success(Ge)
    else Failure(UnknownOperator(op))
  }

  /** The `BINOPS` lambdas on two values. Python's `==` is false across
      kinds; ordering an integer against a string raises TypeError. */
  function Compare(op: CmpOp, a: Value, b: Value): (r: Result<bool, Error>)
    ensures r.Failure? <==> op != Eq && !SameKind(a, b)
    ensures r.Failure? ==> r.error == Incomparable
    ensures op == Eq ==> r == Success(a == b)
    ensures SameKind(a, b) && op == Lt ==> r == Success(Less(a, b))
    ensures SameKind(a, b) && op == Le ==> r == Success(Less(a, b) || a == b)
  {
    if op == Eq then Success(a == b)
    else if !SameKind(a, b) then Failure(Incomparable)
    else
      LessTrichotomy(a, b);
      match op
      case Lt => Success(Less(a, b))
      case Gt => Success(Less(b, a))
      case Le => Success(!Less(b, a))
      case Ge => Success(!Less(a, b))
  }

  /** `=` does not depend on the order of its operands. */
  lemma CompareEqSymmetric(a: Value, b: Value)
    ensures Compare(Eq, a, b) == Compare(Eq, b, a)
  {
  }

  /** `>` and `>=` are `<` and `<=` with the operands swapped, and `<=` is
      `<` or `=`, as for Python's integers and strings. */
  lemma CompareConverse(a: Value, b: Value)
    ensures Compare(Gt, a, b) == Compare(Lt, b, a)
    ensures Compare(Ge, a, b) == Compare(Le, b, a)
    ensures Compare(Le, a, b).Success? ==>
      Compare(Le, a, b).value == (Compare(Lt, a, b).value || a == b)
  {
    if SameKind(a, b) {
      LessTrichotomy(a, b);
    }
  }

  /** A value the compiled predicate reads: a column of the row or a
      constant. */
  datatype Operand = Col(cid: nat) | Lit(v: Value)

  /** The filter function `_where_filter` returns, as data. */
  datatype Pred = Pred(op: CmpOp, left: Operand, right: Operand)

  /** The operand lambdas: `row[cid]`, an IndexError past the row's end,
      or the constant. */
  function OperandValue(o: Operand, row: Row): (r: Result<Value, Error>)
    ensures o.Lit? ==> r == Success(o.v)
    ensures o.Col? ==> (r.Success? <==> o.cid < |row|)
    ensures o.Col? && r.Success? ==> r.value == row[o.cid]
    ensures r.Failure? ==> r.error == ColumnOutOfRange(o.cid)
  {
    match o
    case Lit(v) => Success(v)
    case Col(cid) => if cid < |row| then Success(row[cid]) else Failure(ColumnOutOfRange(cid))
  }

  /** The filter lambda: the left operand, then the right, then the
      operator. */
  function Eval(p: Pred, row: Row): Result<bool, Error> {
    var a :- OperandValue(p.left, row);
    var b :- OperandValue(p.right, row);
    Compare(p.op, a, b)
  }

  /** The rows a successful filter keeps. */
  function Holds(p: Pred): Row -> bool {
    row => Eval(p, row) == Success(true)
  }

  /** `FilteredScan` with a filter that may raise: the rows the predicate
      accepts, or the error of the first row it fails on. */
  function FilterRows(rows: seq<Row>, p: Pred): (r: Result<seq<Row>, Error>)
    ensures r.Success? <==> forall i :: 0 <= i < |rows| ==> Eval(p, rows[i]).Success?
    ensures r.Success? ==> r.value == Operators.Filter(rows, Holds(p))
    ensures r.Failure? ==>
      exists i :: 0 <= i < |rows| && Eval(p, rows[i]) == Failure(r.error) &&
        forall j :: 0 <= j < i ==> Eval(p, rows[j]).Success?
    decreases |rows|
  {
    if |rows| == 0 then Success([])
    else
      var keep :- Eval(p, rows[0]);
      var rest :- FilterRows(rows[1..], p);
      assert forall i :: 1 <= i < |rows| ==> rows[i] == rows[1..][i - 1];
      Success((if keep then [rows[0]] else []) + rest)
  }

  /** `ColumnProjection._project` with an IndexError for a column past the
      row's end. */
  function ProjectRow(row: Row, columns: seq<nat>): (r: Result<Row, Error>)
    ensures r.Success? <==> forall j :: 0 <= j < |columns| ==> columns[j] < |row|
    ensures r.Success? ==> r.value == Operators.Project(row, columns)
    ensures r.Failure? ==>
      exists k :: 0 <= k < |columns| && r.error == ColumnOutOfRange(columns[k]) && columns[k] >= |row| &&
        forall j :: 0 <= j < k ==> columns[j] < |row|
    decreases |columns|
  {
    if |columns| == 0 then Success([])
    else if columns[0] >= |row| then Failure(ColumnOutOfRange(columns[0]))
    else
      var rest :- ProjectRow(row, columns[1..]);
      Operators.ProjectCons(row, columns);
      Success([row[columns[0]]] + rest)
  }

  /** `ColumnProjection.exec` row by row. */
  function ProjectRows(rows: seq<Row>, columns: seq<nat>): (r: Result<seq<Row>, Error>)
    ensures r.Success? <==> Operators.ColumnsInRange(rows, columns)
    ensures r.Success? ==> r.value == Operators.ColumnProjection(rows, columns)
    ensures r.Failure? ==>
      exists i :: 0 <= i < |rows| && ProjectRow(rows[i], columns) == Failure(r.error) &&
        forall j :: 0 <= j < i ==> ProjectRow(rows[j], columns).Success?
    decreases |rows|
  {
    if |rows| == 0 then Success([])
    else
      Operators.ColumnsInRangeCons(rows, columns);
      var row :- ProjectRow(rows[0], columns);
      var rest := ProjectRows(rows[1..], columns);
      if rest.Failure? then
        Operators.FirstFailureCons(rows, row => ProjectRow(row, columns), rest.error);
        Failure(rest.error)
      else
        Operators.ColumnProjectionCons(rows, columns);
        Success([row] + rest.value)
  }

  /** The operator trees `_plan_select` builds. */
  datatype Plan =
    | Rows(table: string)
    | Scan(source: Plan)
    | FilteredScan(source: Plan, pred: Pred)
    | ColumnProjection(source: Plan, columns: seq<nat>)

  /** `Expr.exec` over a plan; `rowsOf` stands for each table's `rows()`. */
  function Exec(plan: Plan, rowsOf: string -> Result<seq<Row>, Error>): Result<seq<Row>, Error> {
    match plan
    case Rows(t) => rowsOf(t)
    case Scan(source) => Exec(source, rowsOf)
    case FilteredScan(source, p) =>
      var rows :- Exec(source, rowsOf);
      FilterRows(rows, p)
    case ColumnProjection(source, columns) =>
      var rows :- Exec(source, rowsOf);
      ProjectRows(rows, columns)
  }

  /** `_operand` on a WHERE operand. The source looks the column up through
      `self._curr_table.schema.columnid`, reading `schema` without calling
      it; the model calls `schema()`, as evidently intended. */
  function CompileOperand(s: Schema, t: Term): (r: Result<Operand, Error>)
    ensures t.Const? ==> r == Success(Lit(t.value))
    ensures t.BinExpr? ==> r == Failure(NotImplemented)
    ensures t.Symbol? ==> (r.Success? <==> exists j :: 0 <= j < |s.columns| && s.columns[j].name == t.name)
    ensures t.Symbol? && r.Success? ==>
      r.value.Col? && r.value.cid < |s.columns| && s.columns[r.value.cid].name == t.name
    ensures t.Symbol? && r.Failure? ==> r.error == UnknownColumn(t.name)
  {
    match t
    case Const(v) => Success(Lit(v))
    case Symbol(name) =>
      (match ColumnId(s, name)
       case None => Failure(UnknownColumn(name))
       case Some(cid) => Success(Col(cid)))
    case BinExpr(_, _, _) => Failure(NotImplemented)
  }

  /** `_operand` as written: a column operand fails with AttributeError,
      because a bound method has no `columnid`. */
  function CompileOperandAsWritten(s: Schema, t: Term): Result<Operand, Error> {
    match t
    case Const(v) => Success(Lit(v))
    case Symbol(name) => Failure(MissingAttribute)
    case BinExpr(_, _, _) => Failure(NotImplemented)
  }

  /** As written, no WHERE clause that names a column can be planned, even
      for a column the table has. */
  lemma CompileOperandAsWrittenRejectsColumns(s: Schema, j: nat)
    requires j < |s.columns|
    ensures CompileOperand(s, Symbol(s.columns[j].name)).Success?
    ensures CompileOperandAsWritten(s, Symbol(s.columns[j].name)) == Failure(MissingAttribute)
  {
  }

  /** Every column position a predicate reads lies below `n`. */
  predicate PredFits(p: Pred, n: nat) {
    (p.left.Col? ==> p.left.cid < n) && (p.right.Col? ==> p.right.cid < n)
  }

  /** `_where_filter`: only a comparison is supported; its operator is
      looked up first, then the left operand, then the right. */
  function CompileWhere(s: Schema, w: Where): (r: Result<Pred, Error>)
    ensures r.Success? ==> w.condition.BinExpr? && OpText(r.value.op) == w.condition.op
    ensures r.Success? ==> PredFits(r.value, |s.columns|)
    ensures !w.condition.BinExpr? ==> r == Failure(NotImplemented)
    ensures w.condition.BinExpr? && BinOp(w.condition.op).Failure? ==>
      r == Failure(UnknownOperator(w.condition.op))
    ensures w.condition.BinExpr? ==>
      (r.Success? <==>
        BinOp(w.condition.op).Success? && CompileOperand(s, w.condition.left).Success? &&
        CompileOperand(s, w.condition.right).Success?)
    ensures (w.condition.BinExpr? && BinOp(w.condition.op).Success? &&
             CompileOperand(s, w.condition.left).Failure?) ==>
      r == Failure(CompileOperand(s, w.condition.left).error)
    ensures (w.condition.BinExpr? && BinOp(w.condition.op).Success? &&
             CompileOperand(s, w.condition.left).Success? && CompileOperand(s, w.condition.right).Failure?) ==>
      r == Failure(CompileOperand(s, w.condition.right).error)
  {
    match w.condition
    case BinExpr(op, left, right) =>
      var o :- BinOp(op);
      var a :- CompileOperand(s, left);
      var b :- CompileOperand(s, right);
      Success(Pred(o, a, b))
    case _ => Failure(NotImplemented)
  }

  /** The value an operand term denotes on a row of the schema. */
  function TermValue(s: Schema, t: Term, row: Row): Value
    requires t.Const? || (t.Symbol? && ColumnId(s, t.name).Some?)
    requires |row| == |s.columns|
  {
    if t.Const? then t.value else row[ColumnId(s, t.name).value]
  }

  /** A compiled WHERE clause compares the values its two operand terms
      denote on the row. */
  lemma CompileWhereMeaning(s: Schema, w: Where, row: Row)
    requires CompileWhere(s, w).Success?
    requires |row| == |s.columns|
    ensures w.condition.BinExpr?
    ensures w.condition.left.Const? || (w.condition.left.Symbol? && ColumnId(s, w.condition.left.name).Some?)
    ensures w.condition.right.Const? || (w.condition.right.Symbol? && ColumnId(s, w.condition.right.name).Some?)
    ensures Eval(CompileWhere(s, w).value, row)
      == Compare(CompileWhere(s, w).value.op, TermValue(s, w.condition.left, row), TermValue(s, w.condition.right, row))
  {
  }

  /** `_plan_select`. The table lookup fails first, then the WHERE clause.
      The selected names never fail: `columnids` stops at the first unknown
      name, and a projection onto those positions is added only when they
      differ from `0..n-1`. */
  function PlanSelect(tables: map<string, Schema>, q: Query): (r: Result<Plan, Error>)
    requires q.Select?
    ensures q.fromClause.table !in tables ==> r == Failure(UnknownTable(q.fromClause.table))
    ensures r.Success? <==>
      q.fromClause.table in tables &&
      (q.whereClause.Some? ==> CompileWhere(tables[q.fromClause.table], q.whereClause.value).Success?)
    ensures (q.fromClause.table in tables && q.whereClause.Some? &&
             CompileWhere(tables[q.fromClause.table], q.whereClause.value).Failure?) ==>
      r == Failure(CompileWhere(tables[q.fromClause.table], q.whereClause.value).error)
  {
    var name := q.fromClause.table;
    if name !in tables then Failure(UnknownTable(name))
    else
      var s := tables[name];
      var expr :- match q.whereClause
        case None => Success(Scan(Rows(name)))
        case Some(w) =>
          var p :- CompileWhere(s, w);
          Success(FilteredScan(Rows(name), p));
      var columns := ColumnIds(s, q.exprs);
      if columns != Range(|s.columns|) then Success(ColumnProjection(expr, columns)) else Success(expr)
  }

  /** `SimplePlanner.plan`: only SELECT is planned. */
  function PlanQuery(tables: map<string, Schema>, q: Query): (r: Result<Plan, Error>)
    ensures !q.Select? ==> r == Failure(NotImplemented)
    ensures q.Select? ==> r == PlanSelect(tables, q)
  {
    if q.Select? then PlanSelect(tables, q) else Failure(NotImplemented)
  }

  /** Every row has the schema's arity. */
  predicate RowsFit(rows: seq<Row>, s: Schema) {
    forall i :: 0 <= i < |rows| ==> |rows[i]| == |s.columns|
  }

  /** The plan `_plan_select` builds: a scan, filtered when there is a
      WHERE clause, projected when the selected positions are not
      `0..n-1`. */
  lemma PlanSelectShape(tables: map<string, Schema>, q: Query)
    requires q.Select? && PlanSelect(tables, q).Success?
    ensures q.fromClause.table in tables
    ensures q.whereClause.Some? ==> CompileWhere(tables[q.fromClause.table], q.whereClause.value).Success?
    ensures
      var s := tables[q.fromClause.table];
      var columns := ColumnIds(s, q.exprs);
      var base := if q.whereClause.None? then Scan(Rows(q.fromClause.table))
        else FilteredScan(Rows(q.fromClause.table), CompileWhere(s, q.whereClause.value).value);
      PlanSelect(tables, q).value == if columns == Range(|s.columns|) then base else ColumnProjection(base, columns)
  {
  }

  /** Filtering keeps every row's arity. */
  lemma {:induction false} FilterKeepsArity(rows: seq<Row>, p: Row -> bool, n: nat)
    requires forall i :: 0 <= i < |rows| ==> |rows[i]| == n
    ensures forall i :: 0 <= i < |Operators.Filter(rows, p)| ==> |Operators.Filter(rows, p)[i]| == n
    decreases |rows|
  {
    if |rows| > 0 {
      FilterKeepsArity(rows[1..], p, n);
    }
  }

  /** Projecting rows of arity `n` onto positions below `n` succeeds, and
      onto `0..n-1` gives the rows back. */
  lemma ProjectFitting(rows: seq<Row>, columns: seq<nat>, n: nat)
    requires forall i :: 0 <= i < |rows| ==> |rows[i]| == n
    requires forall j :: 0 <= j < |columns| ==> columns[j] < n
    ensures Operators.ColumnsInRange(rows, columns)
    ensures columns == Range(n) ==> Operators.ColumnProjection(rows, columns) == rows
  {
    if columns == Range(n) {
      Operators.ProjectAllColumns(rows, n);
    }
  }

  /** A planned SELECT without WHERE returns the table's rows projected
      onto the selected columns. */
  lemma SelectWithoutWhere(tables: map<string, Schema>, q: Query,
                           rowsOf: string -> Result<seq<Row>, Error>, rows: seq<Row>)
    requires q.Select? && q.whereClause.None? && PlanSelect(tables, q).Success?
    requires rowsOf(q.fromClause.table) == Success(rows)
    requires RowsFit(rows, tables[q.fromClause.table])
    ensures Operators.ColumnsInRange(rows, ColumnIds(tables[q.fromClause.table], q.exprs))
    ensures Exec(PlanSelect(tables, q).value, rowsOf)
      == Success(Operators.ColumnProjection(rows, ColumnIds(tables[q.fromClause.table], q.exprs)))
  {
    var name, s := q.fromClause.table, tables[q.fromClause.table];
    var columns := ColumnIds(s, q.exprs);
    PlanSelectShape(tables, q);
    ProjectFitting(rows, columns, |s.columns|);
    var base := Scan(Rows(name));
    assert Exec(base, rowsOf) == Success(rows);
    if columns != Range(|s.columns|) {
      assert Exec(ColumnProjection(base, columns), rowsOf) == ProjectRows(rows, columns);
    }
  }

  /** A planned SELECT with WHERE fails exactly when the predicate fails on
      some row, and otherwise returns the rows the predicate accepts,
      projected onto the selected columns. */
  lemma SelectWithWhere(tables: map<string, Schema>, q: Query,
                        rowsOf: string -> Result<seq<Row>, Error>, rows: seq<Row>)
    requires q.Select? && q.whereClause.Some? && PlanSelect(tables, q).Success?
    requires rowsOf(q.fromClause.table) == Success(rows)
    requires RowsFit(rows, tables[q.fromClause.table])
    ensures CompileWhere(tables[q.fromClause.table], q.whereClause.value).Success?
    ensures Operators.ColumnsInRange(
      Operators.Filter(rows, Holds(CompileWhere(tables[q.fromClause.table], q.whereClause.value).value)),
      ColumnIds(tables[q.fromClause.table], q.exprs))
    ensures Exec(PlanSelect(tables, q).value, rowsOf).Success? <==>
      forall i :: 0 <= i < |rows| ==>
        Eval(CompileWhere(tables[q.fromClause.table], q.whereClause.value).value, rows[i]).Success?
    ensures Exec(PlanSelect(tables, q).value, rowsOf).Success? ==>
      Exec(PlanSelect(tables, q).value, rowsOf).value == Operators.ColumnProjection(
        Operators.Filter(rows, Holds(CompileWhere(tables[q.fromClause.table], q.whereClause.value).value)),
        ColumnIds(tables[q.fromClause.table], q.exprs))
  {
    var name, s := q.fromClause.table, tables[q.fromClause.table];
    var columns := ColumnIds(s, q.exprs);
    var p := CompileWhere(s, q.whereClause.value).value;
    var kept := Operators.Filter(rows, Holds(p));
    PlanSelectShape(tables, q);
    FilterKeepsArity(rows, Holds(p), |s.columns|);
    ProjectFitting(kept, columns, |s.columns|);
    ExecFilteredScan(name, p, columns, rowsOf, rows);
  }

  /** Running a filtered scan of a table, bare or projected: the filter's
      failure propagates, and otherwise the kept rows are projected. */
  lemma ExecFilteredScan(name: string, p: Pred, columns: seq<nat>,
                         rowsOf: string -> Result<seq<Row>, Error>, rows: seq<Row>)
    requires rowsOf(name) == Success(rows)
    requires Operators.ColumnsInRange(Operators.Filter(rows, Holds(p)), columns)
    ensures Exec(FilteredScan(Rows(name), p), rowsOf) == FilterRows(rows, p)
    ensures Exec(ColumnProjection(FilteredScan(Rows(name), p), columns), rowsOf)
      == if FilterRows(rows, p).Failure? then FilterRows(rows, p)
         else Success(Operators.ColumnProjection(Operators.Filter(rows, Holds(p)), columns))
  {
    var base := FilteredScan(Rows(name), p);
    assert Exec(base, rowsOf) == FilterRows(rows, p);
    if FilterRows(rows, p).Success? {
      assert Exec(ColumnProjection(base, columns), rowsOf) == ProjectRows(Operators.Filter(rows, Holds(p)), columns);
    }
  }

  /** SELECT of every column by name, without WHERE, plans a bare scan of
      the table. */
  lemma PlanFullScan(tables: map<string, Schema>, name: string)
    requires name in tables && Distinct(ColumnNames(tables[name]))
    ensures PlanSelect(tables, Select(ColumnNames(tables[name]), From(name), None))
      == Success(Scan(Rows(name)))
  {
    ColumnIdsOfAllNames(tables[name]);
  }

  /** SELECT of every column by name with a WHERE clause that compiles
      plans a filtered scan of the table, with no projection. */
  lemma PlanFilteredFullScan(tables: map<string, Schema>, name: string, w: Where)
    requires name in tables && Distinct(ColumnNames(tables[name]))
    requires CompileWhere(tables[name], w).Success?
    ensures PlanSelect(tables, Select(ColumnNames(tables[name]), From(name), Some(w)))
      == Success(FilteredScan(Rows(name), CompileWhere(tables[name], w).value))
  {
    ColumnIdsOfAllNames(tables[name]);
  }

  /** ... and returns the table's rows unchanged, in order. */
  lemma SelectAllReturnsRows(tables: map<string, Schema>, name: string,
                             rowsOf: string -> Result<seq<Row>, Error>, rows: seq<Row>)
    requires name in tables && Distinct(ColumnNames(tables[name]))
    requires rowsOf(name) == Success(rows)
    ensures PlanSelect(tables, Select(ColumnNames(tables[name]), From(name), None)).Success?
    ensures Exec(PlanSelect(tables, Select(ColumnNames(tables[name]), From(name), None)).value, rowsOf)
      == Success(rows)
  {
    PlanFullScan(tables, name);
  }

  /** The rows whose column `cid` equals `v`. */
  function ColumnIs(cid: nat, v: Value): Row -> bool {
    row => cid < |row| && row[cid] == v
  }

  /** `WHERE column = constant` over all columns keeps exactly the rows
      holding the constant in that column, in table order. */
  lemma SelectWhereEquals(tables: map<string, Schema>, name: string, column: string, v: Value,
                          rowsOf: string -> Result<seq<Row>, Error>, rows: seq<Row>)
    requires name in tables && Distinct(ColumnNames(tables[name]))
    requires ColumnId(tables[name], column).Some?
    requires rowsOf(name) == Success(rows) && RowsFit(rows, tables[name])
    ensures PlanSelect(tables, Select(ColumnNames(tables[name]), From(name),
      Some(Where(BinExpr("=", Symbol(column), Const(v)))))).Success?
    ensures Exec(PlanSelect(tables, Select(ColumnNames(tables[name]), From(name),
      Some(Where(BinExpr("=", Symbol(column), Const(v)))))).value, rowsOf)
      == Success(Operators.Filter(rows, ColumnIs(ColumnId(tables[name], column).value, v)))
  {
    var s := tables[name];
    var cid := ColumnId(s, column).value;
    var w := Where(BinExpr("=", Symbol(column), Const(v)));
    var q := Select(ColumnNames(s), From(name), Some(w));
    var p := Pred(Eq, Col(cid), Lit(v));
    CompileEquals(s, column, v);
    PlanFilteredFullScan(tables, name, w);
    FilterEquals(rows, cid, v, |s.columns|);
    assert Exec(FilteredScan(Rows(name), p), rowsOf) == FilterRows(rows, p);
  }

  /** `column = constant` compiles to an equality test of the column's
      position against the constant. */
  lemma CompileEquals(s: Schema, column: string, v: Value)
    requires ColumnId(s, column).Some?
    ensures CompileWhere(s, Where(BinExpr("=", Symbol(column), Const(v))))
      == Success(Pred(Eq, Col(ColumnId(s, column).value), Lit(v)))
  {
    assert BinOp("=") == Success(Eq);
  }

  /** On rows that all have the column, the equality filter never fails and
      keeps the rows holding the constant there. */
  lemma FilterEquals(rows: seq<Row>, cid: nat, v: Value, n: nat)
    requires cid < n
    requires forall i :: 0 <= i < |rows| ==> |rows[i]| == n
    ensures FilterRows(rows, Pred(Eq, Col(cid), Lit(v))) == Success(Operators.Filter(rows, ColumnIs(cid, v)))
  {
    var p := Pred(Eq, Col(cid), Lit(v));
    forall i | 0 <= i < |rows| ensures Eval(p, rows[i]) == Success(ColumnIs(cid, v)(rows[i])) {
    }
    Operators.FilterCongruent(rows, Holds(p), ColumnIs(cid, v));
  }
}

=== FILE: query.dfy ===
/** The query values the parser hands to the engine (pydb/query.py). The
    source types the operands of a `BinExpr` loosely as `WhereExpr`, so one
    `Term` type holds comparisons, column symbols and constants alike. */
module Query {
  import opened Wrappers
  import opened Values
  import opened Tables

  datatype Term =
    | BinExpr(op: string, left: Term, right: Term)
    | Symbol(name: string)
    | Const(value: Value)

  datatype Where = Where(condition: Term)

  datatype From = From(table: string)

  datatype Query =
    | CreateTable(schema: Schema)
    | Insert(table: string, columns: seq<string>, values: seq<Value>)
    | Select(exprs: seq<string>, fromClause: From, whereClause: Option<Where>)
}

=== FILE: table.dfy ===
/** Column and table metadata with its validators (pydb/table.py). */
module Tables {
  import opened Wrappers
  import opened Errors
  import opened Values

  datatype DataType = INT | STRING

  datatype ColumnAttr = AUTO_INCREMENT | DEFAULT | FOREIGN_KEY | NOT_NULL | PRIMARY_KEY | UNIQUE

  /** The value an attribute maps to: `True` for a positional attribute, or
      the argument given by keyword. */
  datatype AttrArg = Flag | Arg(v: Value)

  datatype Column = Column(name: string, dtype: DataType, attrs: map<ColumnAttr, AttrArg>)

  datatype Schema = Schema(name: string, columns: seq<Column>)

  /** The Python type `check_type` expects for a declared type. */
  predicate HasType(dtype: DataType, v: Value) {
    match dtype
    case INT => v.Int?
    case STRING => v.Str?
  }

  /** `check_type`: passes exactly for an INT column holding an integer or a
      STRING column holding a string. The "unrecognized dtype" branch cannot
      be reached with the two-member `DataType`. */
  function CheckType(dtype: DataType, v: Value): (r: Option<Error>)
    ensures r.None? <==> (dtype == INT && v.Int?) || (dtype == STRING && v.Str?)
    ensures r.Some? ==> r.value == WrongType
  {
    if HasType(dtype, v) then None else Some(WrongType)
  }

  /** `Column(name, dtype, *attrs, kwattrs=...)`: every positional attribute
      maps to `True`, and the keyword attributes override them. */
  function MakeColumn(name: string, dtype: DataType, attrs: seq<ColumnAttr>,
                      kwattrs: map<ColumnAttr, AttrArg>): (c: Column)
    ensures c.name == name && c.dtype == dtype
    ensures forall a :: a in c.attrs <==> a in attrs || a in kwattrs
    ensures forall a :: a in kwattrs ==> c.attrs[a] == kwattrs[a]
    ensures forall a :: a in attrs && a !in kwattrs ==> c.attrs[a] == Flag
  {
    Column(name, dtype, (map a | a in attrs :: Flag) + kwattrs)
  }

  /** `Column.hasattr`: key membership in the attribute map. */
  predicate HasAttr(c: Column, attr: ColumnAttr) {
    attr in c.attrs
  }

  lemma MakeColumnHasAttr(name: string, dtype: DataType, attrs: seq<ColumnAttr>,
                          kwattrs: map<ColumnAttr, AttrArg>, a: ColumnAttr)
    ensures HasAttr(MakeColumn(name, dtype, attrs, kwattrs), a) <==> a in attrs || a in kwattrs
  {
  }

  /** `check_column`: a column name must not be empty. */
  function CheckColumn(c: Column): (r: Option<Error>)
    ensures r.None? <==> c.name != ""
    ensures r.Some? ==> r.value == SchemaError(EmptyColumnName)
  {
    if c.name == "" then Some(SchemaError(EmptyColumnName)) else None
  }

  /** `Schema.column_names`: the names in declaration order. */
  function ColumnNames(s: Schema): (names: seq<string>)
    ensures |names| == |s.columns|
    ensures forall i :: 0 <= i < |s.columns| ==> names[i] == s.columns[i].name
  {
    seq(|s.columns|, i requires 0 <= i < |s.columns| => s.columns[i].name)
  }

  /** Position of the first column named `name` at or after `from`. */
  function FindColumn(cols: seq<Column>, name: string, from: nat): (r: Option<nat>)
    requires from <= |cols|
    ensures r.Some? ==> from <= r.value < |cols| && cols[r.value].name == name
    ensures r.Some? ==> forall j :: from <= j < r.value ==> cols[j].name != name
    ensures r.None? <==> forall j :: from <= j < |cols| ==> cols[j].name != name
    decreases |cols| - from
  {
    if from == |cols| then None
    else if cols[from].name == name then Some(from)
    else FindColumn(cols, name, from + 1)
  }

  /** `Schema.columnid`: the smallest position whose column is named `name`.
      Python raises StopIteration when there is none; that is `None` here. */
  function ColumnId(s: Schema, name: string): (r: Option<nat>)
    ensures r.Some? ==> r.value < |s.columns| && s.columns[r.value].name == name
    ensures r.Some? ==> forall j :: 0 <= j < r.value ==> s.columns[j].name != name
    ensures r.None? <==> forall j :: 0 <= j < |s.columns| ==> s.columns[j].name != name
  {
    FindColumn(s.columns, name, 0)
  }

  /** `range(n)` as a sequence. */
  function Range(n: nat): (r: seq<nat>)
    ensures |r| == n && forall i :: 0 <= i < n ==> r[i] == i
  {
    seq(n, i requires 0 <= i < n => i)
  }

  /** `tuple(map(columnid, names))`. `columnid` raises StopIteration on a
      name no column has; `map` passes it on and `tuple` takes it for the
      end of the iteration, so the ids stop before the first unknown name
      and no error is raised. */
  function ColumnIdsOf(s: Schema, names: seq<string>): (r: seq<nat>)
    ensures |r| <= |names|
    ensures forall i :: 0 <= i < |r| ==> ColumnId(s, names[i]) == Some(r[i])
    ensures |r| < |names| ==> ColumnId(s, names[|r|]).None?
  {
    if |names| == 0 then []
    else match ColumnId(s, names[0])
      case None => []
      case Some(c) => [c] + ColumnIdsOf(s, names[1..])
  }

  /** `Schema.columnids(*names)`: with no names, every position in order;
      otherwise the position of each name up to the first name no column
      has. */
  function ColumnIds(s: Schema, names: seq<string>): (r: seq<nat>)
    ensures |names| == 0 ==> r == Range(|s.columns|)
    ensures forall i :: 0 <= i < |r| ==> r[i] < |s.columns|
    ensures |names| > 0 ==> |r| <= |names|
    ensures |names| > 0 ==> forall i :: 0 <= i < |r| ==> ColumnId(s, names[i]) == Some(r[i])
    ensures |names| > 0 && |r| < |names| ==> ColumnId(s, names[|r|]).None?
    ensures |names| > 0 ==> (|r| == |names| <==> forall i :: 0 <= i < |names| ==> ColumnId(s, names[i]).Some?)
  {
    if |names| == 0 then Range(|s.columns|) else ColumnIdsOf(s, names)
  }

  /** No two positions of `names` hold the same name. */
  predicate Distinct(names: seq<string>) {
    forall i, j :: 0 <= i < |names| && 0 <= j < |names| && i != j ==> names[i] != names[j]
  }

  function ElemSet(names: seq<string>): set<string> {
    set i | 0 <= i < |names| :: names[i]
  }

  lemma {:induction false} ElemSetSnoc(names: seq<string>, x: string)
    ensures ElemSet(names + [x]) == ElemSet(names) + {x}
  {
    var a := names + [x];
    forall y | y in ElemSet(a) ensures y in ElemSet(names) + {x} {
      var i :| 0 <= i < |a| && a[i] == y;
      if i < |names| { assert names[i] == y; }
    }
    forall y | y in ElemSet(names) + {x} ensures y in ElemSet(a) {
      if y == x { assert a[|names|] == y; }
      else { var i :| 0 <= i < |names| && names[i] == y; assert a[i] == y; }
    }
  }

  lemma {:induction false} ElemSetBound(names: seq<string>)
    ensures |ElemSet(names)| <= |names|
    decreases |names|
  {
    if |names| > 0 {
      var init := names[..|names| - 1];
      assert names == init + [names[|names| - 1]];
      ElemSetSnoc(init, names[|names| - 1]);
      ElemSetBound(init);
    } else {
      assert ElemSet(names) == {};
    }
  }

  /** A fresh name keeps distinct names distinct. */
  lemma DistinctSnoc(names: seq<string>, x: string)
    requires Distinct(names) && x !in ElemSet(names)
    ensures Distinct(names + [x])
  {
    var a := names + [x];
    forall i, j | 0 <= i < |a| && 0 <= j < |a| && i != j
      ensures a[i] != a[j]
    {
      if i < |names| && j < |names| {
        assert a[i] == names[i] && a[j] == names[j];
      } else if i < |names| {
        assert names[i] in ElemSet(names);
      } else {
        assert names[j] in ElemSet(names);
      }
    }
  }

  /** The duplicate test of `check_schema`, `len(set(names)) != len(names)`,
      detects exactly a repeated name. */
  lemma {:induction false} SetSizeDetectsDuplicates(names: seq<string>)
    ensures |ElemSet(names)| == |names| <==> Distinct(names)
    decreases |names|
  {
    if |names| == 0 {
      assert ElemSet(names) == {};
    } else {
      var init := names[..|names| - 1];
      var x := names[|names| - 1];
      assert names == init + [x];
      ElemSetSnoc(init, x);
      ElemSetBound(init);
      SetSizeDetectsDuplicates(init);
      if x in ElemSet(init) {
        var i :| 0 <= i < |init| && init[i] == x;
        assert names[i] == names[|names| - 1];
      } else if Distinct(init) {
        DistinctSnoc(init, x);
      } else {
        var i, j :| 0 <= i < |init| && 0 <= j < |init| && i != j && init[i] == init[j];
        assert names[i] == names[j];
      }
    }
  }

  /** The schema invariant the engine relies on. */
  predicate ValidSchema(s: Schema) {
    && s.name != ""
    && |s.columns| > 0
    && Distinct(ColumnNames(s))
    && forall i :: 0 <= i < |s.columns| ==> s.columns[i].name != ""
  }

  /** The per-column loop of `check_schema`, from position `from` on. */
  function CheckColumnsFrom(cols: seq<Column>, from: nat): (r: Option<Error>)
    requires from <= |cols|
    ensures r.None? <==> forall i :: from <= i < |cols| ==> cols[i].name != ""
    ensures r.Some? ==> r.value == SchemaError(EmptyColumnName)
    decreases |cols| - from
  {
    if from == |cols| then None
    else if CheckColumn(cols[from]).Some? then CheckColumn(cols[from])
    else CheckColumnsFrom(cols, from + 1)
  }

  /** `check_schema`: the checks run in the order empty name, no columns,
      duplicate names, empty column name, and the first failing one decides
      the error. */
  function CheckSchema(s: Schema): (r: Option<Error>)
    ensures r.None? <==> ValidSchema(s)
    ensures r == Some(SchemaError(EmptyTableName)) <==> s.name == ""
    ensures r == Some(SchemaError(NoColumns)) <==> s.name != "" && |s.columns| == 0
    ensures r == Some(SchemaError(DuplicateColumnName)) <==>
      s.name != "" && |s.columns| > 0 && !Distinct(ColumnNames(s))
    ensures r.Some? ==> r.value.SchemaError?
  {
    SetSizeDetectsDuplicates(ColumnNames(s));
    if s.name == "" then Some(SchemaError(EmptyTableName))
    else if |s.columns| == 0 then Some(SchemaError(NoColumns))
    else if |ElemSet(ColumnNames(s))| != |ColumnNames(s)| then Some(SchemaError(DuplicateColumnName))
    else CheckColumnsFrom(s.columns, 0)
  }

  /** Selecting every column by name, in schema order, yields `range(n)` when
      the names are distinct: the fact the planner relies on to skip the
      projection. */
  lemma ColumnIdsOfAllNames(s: Schema)
    requires Distinct(ColumnNames(s))
    ensures ColumnIds(s, ColumnNames(s)) == Range(|s.columns|)
  {
    var names := ColumnNames(s);
    forall i | 0 <= i < |names|
      ensures ColumnId(s, names[i]) == Some(i)
    {
      ColumnIdOfDistinct(s, i);
    }
  }

  /** With distinct names, each column's name finds that column. */
  lemma ColumnIdOfDistinct(s: Schema, i: nat)
    requires Distinct(ColumnNames(s)) && i < |s.columns|
    ensures ColumnId(s, s.columns[i].name) == Some(i)
  {
    var names := ColumnNames(s);
    assert names[i] == s.columns[i].name;
  }

  /** An unknown name cuts the selection short instead of failing: with
      columns `id` and `name`, asking for `name` and `zzz` gives `[1]`, and
      asking for `zzz` alone gives no positions. */
  lemma ColumnIdsStopAtUnknown()
    ensures var s := Schema("students", [Column("id", INT, map[]), Column("name", STRING, map[])]);
      ColumnIds(s, ["name", "zzz"]) == [1] && ColumnIds(s, ["zzz"]) == []
  {
    var s := Schema("students", [Column("id", INT, map[]), Column("name", STRING, map[])]);
    assert ColumnId(s, "name") == Some(1);
    assert ColumnId(s, "zzz") == None;
  }
}

=== FILE: values.dfy ===
/** Column values and rows. The engine stores Python objects; the model
    restricts them to integers and strings, the two declared column types. */
module Values {

  datatype Value = Int(i: int) | Str(s: string)

  /** A row is a tuple of values. */
  type Row = seq<Value>

  predicate SameKind(a: Value, b: Value) {
    (a.Int? && b.Int?) || (a.Str? && b.Str?)
  }

  /** Python's `<` on `str`: lexicographic by code point, a proper prefix
      sorting first. */
  predicate StrLess(a: string, b: string)
    decreases |a|
  {
    if |b| == 0 then false
    else if |a| == 0 then true
    else if a[0] != b[0] then a[0] < b[0]
    else StrLess(a[1..], b[1..])
  }

  /** Python's `<` on two values of the same kind. */
  predicate Less(a: Value, b: Value)
    requires SameKind(a, b)
  {
    if a.Int? then a.i < b.i else StrLess(a.s, b.s)
  }

  lemma {:induction false} StrLessIrreflexive(a: string)
    ensures !StrLess(a, a)
  {
    if |a| > 0 {
      StrLessIrreflexive(a[1..]);
    }
  }

  lemma {:induction false} StrLessAsymmetric(a: string, b: string)
    ensures StrLess(a, b) ==> !StrLess(b, a)
    decreases |a|
  {
    if |a| > 0 && |b| > 0 && a[0] == b[0] {
      StrLessAsymmetric(a[1..], b[1..]);
    }
  }

  /** Any two distinct strings are ordered one way or the other. */
  lemma {:induction false} StrLessTotal(a: string, b: string)
    ensures a == b || StrLess(a, b) || StrLess(b, a)
    decreases |a|
  {
    if |a| > 0 && |b| > 0 && a[0] == b[0] {
      StrLessTotal(a[1..], b[1..]);
      if a[1..] == b[1..] {
        assert a == [a[0]] + a[1..] && b == [b[0]] + b[1..];
      }
    }
  }

  /** Exactly one of `a < b`, `a == b`, `b < a` holds for like values. */
  lemma LessTrichotomy(a: Value, b: Value)
    requires SameKind(a, b)
    ensures Less(a, b) || a == b || Less(b, a)
    ensures !(Less(a, b) && Less(b, a))
    ensures a == b ==> !Less(a, b)
  {
    if a.Str? {
      StrLessTotal(a.s, b.s);
      StrLessAsymmetric(a.s, b.s);
      StrLessIrreflexive(a.s);
    }
  }
}

=== FILE: wrappers.dfy ===
/** Option and Result, the two failure-compatible wrappers the model uses in
    place of Python's `None` and raised exceptions. Both support `:-`. */
module Wrappers {

  datatype Option<+T> = None | Some(value: T) {
    predicate IsFailure() { None? }

    function PropagateFailure<U>(): Option<U>
      requires None?
    {
      None
    }

    function Extract(): T
      requires Some?
    {
      value
    }
  }

  datatype Result<+T, +E> = Success(value: T) | Failure(error: E) {
    predicate IsFailure() { Failure? }

    function PropagateFailure<U>(): Result<U, E>
      requires Failure?
    {
      Failure(error)
    }

    function Extract(): T
      requires Success?
    {
      value
    }
  }
}
